=== FILE: README.md ===
# Archive directory readers, modelled in Dafny

This project models the part of the repository that decodes binary data. There are four
pieces:

- the GMP reader (`GMP_File` in gmp.py, and the near-identical copy in arch/gmp.py);
- the AFS reader (`AFS_File` in afs.py);
- the DAR reader (`DAR_File` in dar.py);
- the field decode of a TPL data block (`TPL_DBlock` in graphics/tpl.py).

Each reader is modelled as pure functions over an immutable byte sequence (`seq<uint8>`):

- the header and every directory record are decoded at computed offsets;
- names are NUL-stripped or NUL-terminated strings;
- extraction becomes a list of file writes (path and bytes) instead of file-system calls.

Where the Python raises before any operating-system call, the model returns an error value
instead of requiring the input to be well formed. That covers a `struct.unpack` on a short
read, a list index out of range, an output path that cannot be ASCII-encoded, and a path
that `open` or `os.mkdir` rejects because it holds a NUL byte. Extraction stops at the first
such path, as the Python loop does. Refusals by the operating system itself are not
modelled (see "## Left out").
Python 2 byte strings are modelled as `string`s whose characters are the byte values
(Latin-1).

Files, one module each:

- `outcomes.dfy` (`Outcomes`): `Result` and `Option`; `Collect` (all values, or the first
  error) and `UntilFailure` (the values before the first error, and that error), the two
  ways a loop that stops at its first exception ends.
- `bytes.dfy` (`Bytes`): the shared byte-level helpers:
  - little-endian u32 read and write (`LeU32`, `LeBytes`);
  - `str.strip("\0")` (`StripNul`);
  - NUL-terminated strings (`CString`);
  - short reads (`ReadAt`);
  - record concatenation;
  - the Latin-1 view of bytes.
- `text.dfy` (`Text`): the shared text helpers:
  - `"%08X_%s"` output names (`OffsetName`);
  - `str(i)` for a natural number;
  - POSIX `os.path.join`, `os.path.split` and `split(os.sep)[-1]`;
  - `split(".")[0]`.
- `gmp.dfy` (`Gmp`), `afs.dfy` (`Afs`), `dar.dfy` (`Dar`): one module per reader. Each has
  its parser, an encoder that serves as the parser's inverse, a round-trip theorem, and its
  extraction rule.
- `arch_gmp.dfy` (`GmpArch`): only the output-directory rule of arch/gmp.py, whose parser
  is the one in gmp.py.
- `tpl.dfy` (`Tpl`): the `TPL_DBlock` decode, Python's `>>` on integers, and the inverse
  encoding.

## Model

| member | source | states |
|---|---|---|
| Gmp.Parse | gmp.py:13-22 | Parsing succeeds exactly when the 16-byte header and every one of the `fileCount` 32-byte descriptors lie inside the image. Otherwise it fails with `Truncated`. The four header fields are the u32 words at 0, 4, 8 and 12. The descriptor list has exactly `fileCount` entries, and entry i is decoded from the 32 bytes at `descriptorOffset + 32*i`. |
| Gmp.DecodeName | gmp.py:19-21 | A decoded name is never empty. An all-NUL field gives "f" followed by the decimal index. Any other field gives its bytes with the leading and trailing NULs removed. |
| Gmp.DefaultNamesDistinct | gmp.py:20-21 | Two entries whose default names are equal have the same index. |
| Gmp.ParseValid | gmp.py:15-22 | Every parsed archive has one descriptor per counted file. Each name has 1 to 20 byte-valued characters and does not start or end with NUL. |
| Gmp.DecodeEncodeDescriptor | gmp.py:19-22 | A 32-byte descriptor written from a storable descriptor decodes back to the same name, `rl`, `offset` and `unknown`. |
| Gmp.ParseEncode | gmp.py:13-22 | Parsing the image encoded from any valid archive gives back that archive: the header words and every descriptor, in order. |
| Gmp.Payload | gmp.py:37-38 | An entry's payload is the `rl` bytes at `offset` when the image holds them. It is never longer than `rl`. |
| Gmp.ExtractEntry | gmp.py:37-42 | One pass of the loop writes the entry's payload to "<archive>_files/<name>" exactly when that path is ASCII and holds no NUL, the checks Python makes before the operating system sees the path. A non-ASCII path fails with `NonAsciiPath`, because `str.encode()` rejects it first. An ASCII path holding NUL fails with `NulInPath`, because `open` rejects it. |
| Gmp.ExtractFiles | gmp.py:32-42 | Extraction creates "<archive>_files". Write k goes to the path of entry k and holds entry k's payload. All `fileCount` entries are written exactly when every path passes those two checks; refusals by the operating system are not modelled. Otherwise extraction stops at the first refused entry with that entry's error, after writing the entries before it. |
| Gmp.NulFieldDecodes | gmp.py:19-21 | The name field `61 00 62` followed by seventeen NULs decodes to "a", NUL, "b": the strip keeps the interior NUL. |
| Gmp.NulNameStopsExtraction | gmp.py:19-41 | The entry decoded from that field has an ASCII output path, yet extraction stops there with `NulInPath("g_files/a\0b")` before writing anything. |
| Gmp.ExtractWritesPayloads | gmp.py:36-42 | For a parsed archive whose payloads lie inside it, each written file is exactly the `rl` bytes at the entry's `offset`. |
| GmpArch.OutputDirectory | arch/gmp.py:27-30 | An output directory with no '/' becomes the working directory joined to it with a single '/', with no '/' added when the working directory is empty or already ends in '/'. Any other directory is joined the same way to "<archive>_files", which replaces it outright when the archive name is absolute. |
| GmpArch.OutputDirectoryBaseName | arch/gmp.py:27-30 | For an archive name without '/', the chosen directory's last component is the output directory itself when it has no '/', and "<archive>_files" otherwise. |
| Afs.IsAfsFile | afs.py:50-56 | The magic check fails on images shorter than 4 bytes. Otherwise it is true exactly when bytes 0-3 are 41 46 53 00. |
| Afs.Parse | afs.py:11-25 | Parsing succeeds exactly when the count, the entry table, the name-table offset word and every 48-byte name record lie inside the image. The archive name is the last path component. The entry count is the word at 4, with that many entries. |
| Afs.ParseEntries | afs.py:18-25 | Entry i holds the two words of table slot i, which starts at byte 8. Its name and four unknown words come from name record i, at the offset stored in the name-table word plus 48*i. |
| Afs.ParseIgnoresMagic | afs.py:12-14 | A failed magic check is ignored. Two images that differ only in their first four bytes parse alike, provided the name table does not overlap those bytes. |
| Afs.WrongMagicStillParses | afs.py:12-15 | An image of sixteen zero bytes fails the magic check yet parses as an empty archive. |
| Afs.EntryAtSameBytes | afs.py:18-25 | An entry depends only on its own table slot and its own name record. |
| Afs.ParseValid | afs.py:23-24 | Every parsed name has at most 32 byte-valued characters and does not start or end with NUL. |
| Afs.ParseEncode | afs.py:14-25 | Parsing the image encoded from any valid archive gives back every entry's offset, run length, name and unknown words, in order. |
| Afs.OutputDirectory | afs.py:32 | Left at the working directory, the output directory becomes the archive name up to its first '.' followed by "_files". Any other choice is kept. |
| Afs.ExtractEntry | afs.py:36-39 | One pass of the loop succeeds exactly when `join(directory, "%08X_%s" % (dataOffset, name))` holds no NUL, the one refusal Python makes before the operating system sees the path, and otherwise fails with `NulInPath`. The file holds `dataRunLength` bytes at `dataOffset` when the image holds them, and never more. |
| Afs.ExtractFiles | afs.py:35-40 | Writes follow table order. Write i goes to entry i's path and holds `dataRunLength` bytes at `dataOffset` when the image holds them, never more. Every entry is written exactly when no path holds NUL; refusals by the operating system are not modelled. Otherwise extraction stops at the first entry whose path holds NUL, with `NulInPath` for that path. |
| Afs.NulFreeNamesExtractAll | afs.py:35-40 | With a NUL-free directory and NUL-free names, extraction writes every entry. In the model, an interior NUL in a name is the only thing that stops it. |
| Afs.OutputPathsDistinct | afs.py:37-38 | Two entries that differ in offset or in name get different output paths. |
| Dar.Parse | dar.py:19-40 | Images shorter than the 16-byte header fail with `Truncated`. Otherwise parsing succeeds exactly when every one of the `fileCount` records decodes. The header words are those at 0, 4, 8 and 12. Entry k is what record k decodes to. |
| Dar.DecodeRecordSpec | dar.py:24-39 | A record fails with `Truncated` exactly when its 16 bytes run past the end. It fails with an unterminated-name error exactly when no NUL follows its name offset. Otherwise it yields its three size and offset words. Its compression flag is set exactly when the compressed size is not zero. Its name is the NUL-free bytes up to the first NUL after the name offset. |
| Dar.ParseFirstError | dar.py:23-39 | A failed parse reports the error of the first record that cannot be read, and every earlier record decodes. |
| Dar.ParseValid | dar.py:28-39 | Every parsed archive has one entry per counted file. Each compression flag matches its compressed size, and each name is byte-valued and free of NUL. |
| Dar.ParseEncode | dar.py:21-39 | Parsing the image encoded from any encodable archive gives back the archive: header words, count, and every entry's sizes, offset, flag and name, in order. |
| Dar.ResolveIndex | dar.py:69-70 | Python list indexing: an index resolves exactly when `-n <= index < n`. The resolved position is the index itself or the index plus n. |
| Dar.ResolveIndexAliases | dar.py:69-70 | Entry i is reached by exactly two indices, i and i - n. |
| Dar.ExtractFile | dar.py:69-81 | Extraction fails with `IndexOutOfRange` when `fileindex - initialindex` does not resolve. Otherwise it fails with `NulInPath` exactly when `join(directory, "%08X_%s" % (fileOffset, name))` holds NUL; refusals by the operating system are not modelled. Otherwise it writes to that path, reading `compressedSize` bytes to inflate for a compressed entry and `fileSize` bytes for a plain one. |
| Dar.StoredSize | dar.py:95-96 | The stored size follows the compression flag. When the flag agrees with the compressed size, it is the compressed size if that is not zero, and the full size otherwise. |
| Dar.StoredSizeOfParsed | dar.py:95-96 | On every entry of a parsed archive, the stored size is the compressed size if that is not zero, and the full size otherwise. |
| Dar.ExtractReadsStoredSize | dar.py:73-81 | When an entry is extracted, its bytes are the stored size's worth at its offset when the image holds them, and never more. |
| Dar.ExtractFiles | dar.py:51-58 | Indices 0 to `fileCount - 1` are extracted in order with initial index 0. The files go under the given directory, or under the archive's name when none or an empty one is given. Extraction stops at the first call that fails in the model, with that call's error, after writing the ones before it; refusals by the operating system are not modelled. A directory holding NUL stops everything at `os.mkdir` with `NulInPath` and no writes, even when there are no entries. |
| Dar.NulDirectoryStopsExtraction | dar.py:51-55 | An archive with no entries extracted into "a", NUL, "b" still fails with `NulInPath` and writes nothing. |
| Dar.ParsedExtractsAll | dar.py:51-58 | For a parsed archive and a NUL-free output directory, every entry is written. |
| Dar.OutputPathsDistinct | dar.py:71 | Two entries that differ in offset or in name get different output paths. |
| Dar.ColumnPad | dar.py:90-91 | The name-column padding is never below 8. With the 8 columns after it, it is exactly as wide as the longest name once that name exceeds 16 characters. |
| Dar.LongestFromIsLast | dar.py:33-40 | Run pass by pass as written (reset to 0, count `l`, raise to `l` if larger), the name loop leaves the last name's length whatever came before. With no passes the value is unchanged. |
| Dar.NameLoopNeverEnds | dar.py:36-39 | Run as written, the byte-at-a-time name loop never stops, however many steps it is given, when no NUL follows the position: at end of file it reads nothing and does not move. |
| Dar.NameLoopReachesNul | dar.py:36-39 | Given more steps than the distance to the first NUL, the loop as written stops exactly at that NUL. |
| Dar.NameLoopAgreesWithDecode | dar.py:32-39 | The loop as written stops just past the name the decode returns whenever the record decodes, and never stops when the decode reports an unterminated name. |
| Dar.LongestAsWrittenIsLast | dar.py:33-40 | As written, `longestFileName` is never set when there are no entries, and otherwise ends as the last name's length. |
| Dar.LongestAsWrittenTooNarrow | dar.py:33-40 | As written, a 20-character name followed by a 1-character name gets a 16-column field, narrower than the first name. |
| Dar.LongestName | dar.py:33-40 | The corrected maximum: no name is longer, and some name has exactly this length. |
| Dar.NamesFitColumn | dar.py:90-97 | With the corrected maximum, every name fits the column that the table lays out. The column is 16 wide or exactly as wide as some name. |
| Tpl.ShiftRight | graphics/tpl.py:8 | `x >> n` is the unique integer r with `2^n * r <= x < 2^n * r + 2^n`: floor division, also for negative x. |
| Tpl.Decode | graphics/tpl.py:8 | Blocks of fewer than five values raise. Otherwise `hShift`, `readStart` and `hrle` are elements 0, 2 and 3 unchanged, `2*vShift <= block[1] < 2*vShift + 2`, and `4*vrle <= block[4] < 4*vrle + 4`. |
| Tpl.DecodeByteRanges | graphics/tpl.py:8 | For byte-sized elements 1 and 4, `vShift` is below 128 and `vrle` below 64. |
| Tpl.DecodeReadsFive | graphics/tpl.py:8 | Only elements 0 to 4 are read: appending anything to a five-value block changes nothing. |
| Tpl.DecodeEncode | graphics/tpl.py:8 | Decoding a block built from a DBlock gives it back, whatever low bits the shifts drop. |
| Tpl.EncodeDecode | graphics/tpl.py:8 | The first five values of every decodable block are the encoding of its decode, with the low bits of elements 1 and 4. |
| Bytes.LeU32OfLeBytes | gmp.py:14 | Reading back the little-endian encoding of a u32 gives that u32. |
| Bytes.LeBytesOfLeU32 | gmp.py:14 | Any four bytes are the little-endian encoding of the u32 they hold. |
| Bytes.StripNulSpec | gmp.py:19 | `strip("\0")` keeps a contiguous middle of the field, and every byte outside it is NUL. The middle neither starts nor ends with NUL, and interior NULs are kept. It is empty exactly when the field is all NUL. |
| Bytes.StripNulUnique | afs.py:24 | The stripped name is the only slice with those properties. |
| Bytes.StripNulIdempotent | afs.py:24 | Stripping twice is stripping once. |
| Bytes.CStringSpec | dar.py:32-39 | The byte-by-byte name loop yields the bytes from the offset up to the first NUL, which contain no NUL. It has no result exactly when no NUL follows the offset. |
| Bytes.CStringUnique | dar.py:35-39 | A NUL-free run followed by NUL at the offset is the name that the loop reads. |
| Text.OffsetName | afs.py:37 | The output name is 9 characters longer than the name: eight uppercase hex digits that read back as the offset, then '_', then the name. |
| Text.Hex8UpperRoundTrip | dar.py:71 | `%08X` of a u32 reads back as that u32. |
| Text.OffsetNameInjective | dar.py:71 | Different (offset, name) pairs give different output names. |
| Text.DecimalRoundTrip | gmp.py:21 | `str(i)` reads back as i. |
| Text.PathJoin | afs.py:38 | Joining an absolute name gives the name itself. A relative name is appended to an empty or '/'-ended directory as it is, and to any other directory after exactly one '/'. |
| Text.PathJoinInjective | afs.py:38 | Joining different relative names onto one directory gives different paths. |
| Text.BaseName | afs.py:11 | `split(os.sep)[-1]` is the longest '/'-free suffix of the path. |
| Text.BeforeFirstDot | afs.py:32 | `split(".")[0]` is the longest '.'-free prefix. |
| Text.SplitHead | arch/gmp.py:27 | The head of `os.path.split` is empty exactly when the path has no '/'. |
| Outcomes.CollectFirstFailure | dar.py:23-26 | Reading records in order stops at the first failing one, and that record's error is the one reported. |
| Outcomes.UntilFailure | afs.py:35-40 | A loop that stops at its first exception completes the steps before it, in order. It ends without error exactly when every step succeeds, and otherwise with the error of the first failing step. |
| Outcomes.CollectUntilFailure | dar.py:23-26 | The two views of such a loop agree: all values when nothing fails, otherwise the same first error. |

## Left out

- All file-system I/O is left out: `open`, `seek`, `read`, `write`, `close`, `os.mkdir` and `os.mkdirs`, and the reopen in gmp.py:26-31. The image is a byte sequence and extraction yields the writes it would make. A short read is a clamped slice, and a short read under `struct.unpack` is the `Truncated` error.
- The working directory (`os.getcwd()`, also used as a default argument) is a parameter. Archive file names are parameters.
- zlib decompression in dar.py:73-79 is a foreign call. A DAR write carries the raw stored bytes and a flag saying whether they are to be inflated. Python falls back to the raw bytes when inflating fails.
- The `info` tables (gmp.py:43-48, afs.py:43-48, dar.py:86-98) are presentation only. Two DAR rules are modelled: the column width (`Dar.ColumnPad`) and the stored size (`Dar.StoredSize`). As written, DAR `info` also raises, because dar.py:92 reads `self.fileNamesoffset`, which is never set.
- Gmp.ExtractEntry, Gmp.ExtractFiles, Afs.ExtractEntry, Afs.ExtractFiles, Dar.ExtractFile, Dar.ExtractFiles: refusals of `open` by the operating system are not modelled. Every ASCII, NUL-free path counts as writable. Python raises IOError for a name such as "." or ".." (the path is a directory), and for a name with '/' whose subdirectory does not exist, at gmp.py:41, afs.py:38 and dar.py:72. The model writes such an entry instead. Whether the call succeeds depends on the file system, which is not part of the model.
- Left out as command-line plumbing: the `__main__` blocks, the `verbose` and `extrainfo` flags, and every `print`.
- `DAR_File.isDARFile` always answers `False` and its verdict is ignored. The archive-creation branch (dar.py:42-45) and `addFile` do nothing that can be checked.
- In arch/gmp.py, files are written under "<archive>_files/" whatever directory was computed (arch/gmp.py:46). Its `os.mkdirs` does not exist, and the bare `except` swallows the error. Only the directory rule is modelled; the writes are those of `Gmp.ExtractFiles`.
- dar.py cannot run as written:
  - line 24 seeks on an undefined `infile`;
  - line 25 assigns into an empty list;
  - line 29 has an `else` without a colon;
  - line 13 evaluates `open(kwargs["filename"], "rb")` even when `file=` is given, so a call with only `file=` raises `KeyError`, and the bare `except` prints and exits.

  The model reads as evidently intended: the file object when one is given and the named file otherwise (the model starts from the image either way), the archive's own file, an appended entry, and the two-way compression flag.
- A DAR name with no NUL after its offset makes the loop in dar.py:36-39 spin forever at end of file. The model reports `UnterminatedName` for that record instead (see Findings).
- `TPL_CBlock` and every `TPL_File` method are `pass` (graphics/tpl.py:11-27); there is no tile or sprite code to model.
- Text.SplitHead: its contract states only when the head of `os.path.split` is empty. That is the only fact the arch/gmp.py directory rule depends on. The head's exact contents are not stated.
- Afs.Parse: its contract states success, count and length only. The entry-by-entry content is stated by `Afs.ParseEntries`.
- Dar.Parse: its contract relates entry k to `Records(...)[k]`. `Dar.Records` equates that with the decode of record k, and `Dar.DecodeRecordSpec` states what that decode is.

## Findings

| source | as written | input that shows it | evidently intended | confidence | as-written member | corrected member |
|---|---|---|---|---|---|---|
| dar.py:33-40 | `longestFileName` is reset to 0 inside the per-entry loop, so afterwards it holds only the last name's length, and it is never set when there are no entries | two entries named "twenty-character-nam" (20 characters) and "b": `longestFileName` ends as 1, so `info` would pad the name column to 16 characters, narrower than the first name. The narrow column shows only once dar.py:92 (`fileNamesoffset`) is also corrected, since `info` raises there first. With no entries `info` raises at dar.py:90 instead | the longest name length over all entries, so that every name fits the column | high; not executed | Dar.LongestAsWrittenIsLast, Dar.LongestAsWrittenTooNarrow | Dar.LongestName, Dar.NamesFitColumn |
| dar.py:36-39 | the name loop ends only when `read(1)` returns NUL; at end of file `read(1)` returns the empty string forever, so the loop never ends | a record whose name offset is at or past the end of the file, or whose name runs to the end without a NUL: `DAR_File.__init__` never returns. The loop is reached only once dar.py:24, :25 and :29 are also corrected, since the constructor fails before it as written | report the name as unterminated and stop | high; not executed | Dar.NameLoopNeverEnds, Dar.NameLoopAgreesWithDecode | Dar.DecodeRecordSpec, Dar.ParseFirstError |

=== FILE: afs.dfy ===
/** The AFS container directory (afs.py).

    Layout, all fields little-endian u32:
      magic "AFS\0" at 0, fileCount at 4
      entry table at 8:        fileCount × (dataOffset, dataRunLength)         (8 bytes each)
      right after it:          fileNamesOffset, fileNamesRunLength             (8 bytes)
      name record i at fileNamesOffset + 48*i:
                               name (32 bytes, NUL padded), four unknown words (48 bytes)
 */
module Afs {
  import opened Outcomes
  import opened Bytes
  import opened Text

  const Magic: seq<uint8> := [0x41, 0x46, 0x53, 0x00]
  const TableOffset: nat := 8
  const EntrySize: nat := 8
  const NameRecordSize: nat := 48
  const NameFieldSize: nat := 32

  datatype Entry = Entry(
    dataOffset: uint32,
    dataRunLength: uint32,
    fileName: string,
    u: (uint32, uint32, uint32, uint32))

  datatype Archive = Archive(afsFileName: string, fileCount: uint32, fileInfo: seq<Entry>)

  /** `Truncated`: a `struct.unpack` met a short read. `NulInPath`: `open` refused an output
      path holding a NUL byte (a name with an interior NUL). */
  datatype Error = Truncated | NulInPath(path: string)

  /** `AFS_File.isAFSFile`: whether the first four bytes are "AFS\0". Unpacking them from a
      shorter file raises. */
  function IsAfsFile(data: seq<uint8>): (r: Result<bool, Error>)
    ensures r.Failure? <==> |data| < 4
    ensures r.Failure? ==> r.error == Truncated
    ensures r.Success? ==>
      (r.value <==> data[0] == 0x41 && data[1] == 0x46 && data[2] == 0x53 && data[3] == 0x00)
  {
    if |data| < 4 then Failure(Truncated) else Success(data[..4] == Magic)
  }

  /** Where the entry table ends and the name-table offset word begins. */
  function NameTableWord(count: nat): (off: nat)
  {
    TableOffset + 8 * count
  }

  /** The text of a NUL-padded name field (`read(32).strip("\0")`). */
  function DecodeName(field: seq<uint8>): (name: string)
  {
    Latin1(StripNul(field))
  }

  /** Entry `i` of an archive whose name table starts at `names`: offset and run length
      from table slot `i`, name and unknown words from name record `i`. */
  function EntryAt(data: seq<uint8>, names: nat, i: nat): (e: Entry)
    requires TableOffset + 8 * i + EntrySize <= |data|
    requires names + 48 * i + NameRecordSize <= |data|
  {
    var t := TableOffset + 8 * i;
    var n := names + 48 * i;
    Entry(LeU32(data, t), LeU32(data, t + 4), DecodeName(data[n..n + NameFieldSize]),
          (LeU32(data, n + 32), LeU32(data, n + 36), LeU32(data, n + 40), LeU32(data, n + 44)))
  }

  /** The table holds the count word and the whole entry table with the name-table offset word
      after it. */
  predicate TableFits(data: seq<uint8>)
  {
    TableOffset <= |data| && NameTableWord(LeU32(data, 4)) + 8 <= |data|
  }

  /** The name-table offset word (`fileNamesOffset`). */
  function NamesOffset(data: seq<uint8>): (names: uint32)
    requires TableFits(data)
  {
    LeU32(data, NameTableWord(LeU32(data, 4)))
  }

  /** Every name record lies inside the archive. */
  predicate NamesFit(data: seq<uint8>)
    requires TableFits(data)
  {
    LeU32(data, 4) == 0 || NamesOffset(data) + 48 * LeU32(data, 4) <= |data|
  }

  /** `AFS_File.__init__`. The magic check's verdict is ignored; then the count at 4, the
      entry table read sequentially from 8, the name-table offset word right after it, and one
      48-byte name record per entry from the name table on. */
  function Parse(path: string, data: seq<uint8>): (r: Result<Archive, Error>)
    ensures r.Success? <==> TableFits(data) && NamesFit(data)
    ensures r.Failure? ==> r.error == Truncated
    ensures r.Success? ==>
      && r.value.afsFileName == BaseName(path)
      && r.value.fileCount == LeU32(data, 4)
      && |r.value.fileInfo| == r.value.fileCount
  {
    var _ :- IsAfsFile(data);
    if !TableFits(data) || !NamesFit(data) then Failure(Truncated)
    else
      var count := LeU32(data, 4);
      var names := NamesOffset(data);
      Success(Archive(BaseName(path), count, Entries(data, names, count)))
  }

  /** The first `count` entries, in table order. */
  function Entries(data: seq<uint8>, names: nat, count: nat): (es: seq<Entry>)
    requires NameTableWord(count) <= |data|
    requires count == 0 || names + 48 * count <= |data|
    ensures |es| == count
    ensures forall i :: 0 <= i < count ==>
      && TableOffset + 8 * i + EntrySize <= |data|
      && names + 48 * i + NameRecordSize <= |data|
      && es[i] == EntryAt(data, names, i)
  {
    seq(count, i requires 0 <= i < count => EntryAt(data, names, i))
  }

  /** Entry `i` of a parsed archive is decoded from slot `i` of the table at 8 and name
      record `i` of the name table. */
  lemma ParseEntries(path: string, data: seq<uint8>)
    requires Parse(path, data).Success?
    ensures var es := Parse(path, data).value.fileInfo;
      forall i :: 0 <= i < |es| ==>
        && TableOffset + 8 * i + EntrySize <= |data|
        && NamesOffset(data) + 48 * i + NameRecordSize <= |data|
        && es[i] == EntryAt(data, NamesOffset(data), i)
  {
  }

  /** Two images that agree from byte 4 on. */
  predicate AgreeFrom4(data: seq<uint8>, other: seq<uint8>)
  {
    |data| == |other| && forall k :: 4 <= k < |data| ==> data[k] == other[k]
  }

  lemma LeU32From4(data: seq<uint8>, other: seq<uint8>, off: nat)
    requires AgreeFrom4(data, other)
    requires 4 <= off && off + 4 <= |data|
    ensures LeU32(data, off) == LeU32(other, off)
  {
  }

  /** Two images that agree on the bytes in `[lo, hi)`. */
  predicate SameBytes(data: seq<uint8>, other: seq<uint8>, lo: nat, hi: nat)
    requires hi <= |data| && hi <= |other|
  {
    forall k :: lo <= k < hi ==> data[k] == other[k]
  }

  /** An entry depends only on its table slot and its name record. */
  lemma EntryAtSameBytes(data: seq<uint8>, other: seq<uint8>, names: nat, i: nat)
    requires TableOffset + 8 * i + EntrySize <= |data| == |other|
    requires names + 48 * i + NameRecordSize <= |data|
    requires var t := TableOffset + 8 * i; SameBytes(data, other, t, t + EntrySize)
    requires var n := names + 48 * i; SameBytes(data, other, n, n + NameRecordSize)
    ensures EntryAt(data, names, i) == EntryAt(other, names, i)
  {
    var t := TableOffset + 8 * i;
    var n := names + 48 * i;
    SameWord(data, other, t);
    SameWord(data, other, t + 4);
    SameSlice(data, other, n, n + NameFieldSize);
    SameWord(data, other, n + 32);
    SameWord(data, other, n + 36);
    SameWord(data, other, n + 40);
    SameWord(data, other, n + 44);
    EntryAtFields(other, names, i, EntryAt(data, names, i));
  }

  lemma SameWord(data: seq<uint8>, other: seq<uint8>, off: nat)
    requires off + 4 <= |data| && off + 4 <= |other| && SameBytes(data, other, off, off + 4)
    ensures LeU32(data, off) == LeU32(other, off)
  {
  }

  lemma SameSlice(data: seq<uint8>, other: seq<uint8>, lo: nat, hi: nat)
    requires lo <= hi <= |data| && hi <= |other| && SameBytes(data, other, lo, hi)
    ensures data[lo..hi] == other[lo..hi]
  {
  }

  /** The magic number is checked but never enforced: two archives that differ only in
      their first four bytes parse alike, except where the name table itself overlaps them. */
  lemma ParseIgnoresMagic(path: string, data: seq<uint8>, other: seq<uint8>)
    requires |data| == |other| && |data| >= 4 && data[4..] == other[4..]
    ensures Parse(path, data).Success? <==> Parse(path, other).Success?
    ensures Parse(path, data).Success? && NamesOffset(data) >= 4 ==>
      Parse(path, data) == Parse(path, other)
  {
    assert AgreeFrom4(data, other) by {
      forall k | 4 <= k < |data|
        ensures data[k] == other[k]
      {
        assert data[k] == data[4..][k - 4];
      }
    }
    if |data| >= TableOffset {
      LeU32From4(data, other, 4);
      var count := LeU32(data, 4);
      var word := NameTableWord(count);
      if word + 8 <= |data| {
        LeU32From4(data, other, word);
        var names := NamesOffset(data);
        if Parse(path, data).Success? && names >= 4 {
          var a := Parse(path, data).value;
          var b := Parse(path, other).value;
          ParseEntries(path, data);
          ParseEntries(path, other);
          forall i | 0 <= i < count
            ensures a.fileInfo[i] == b.fileInfo[i]
          {
            EntryAtSameBytes(data, other, names, i);
          }
          assert a.fileInfo == b.fileInfo;
        }
      }
    }
  }

  /** An archive whose magic is wrong still parses: sixteen zero bytes are an empty archive. */
  lemma WrongMagicStillParses()
    ensures IsAfsFile(Zeros(16)) == Success(false)
    ensures Parse("x.afs", Zeros(16)) == Success(Archive("x.afs", 0, []))
  {
    var data := Zeros(16);
    assert data[..4] != Magic by {
      assert data[0] == 0;
    }
    assert LeU32(data, 4) == 0;
    assert LeU32(data, 8) == 0;
    assert BaseName("x.afs") == "x.afs";
  }

  /** What every parsed entry satisfies and what an image of it needs: a name of at most 32
      byte-valued characters that neither starts nor ends with NUL (it may be empty). */
  predicate StorableName(name: string)
  {
    && |name| <= NameFieldSize
    && IsLatin1(name)
    && (name != [] ==> name[0] != '\0' && name[|name| - 1] != '\0')
  }

  predicate ValidArchive(a: Archive)
  {
    && a.fileCount == |a.fileInfo|
    && forall i :: 0 <= i < |a.fileInfo| ==> StorableName(a.fileInfo[i].fileName)
  }

  /** A decoded name field is always storable: stripping keeps at most 32 bytes and never
      leaves a NUL at either end. */
  lemma DecodeNameStorable(field: seq<uint8>)
    requires |field| == NameFieldSize
    ensures StorableName(DecodeName(field))
  {
    StripNulSpec(field);
  }

  lemma EntryAtStorable(data: seq<uint8>, names: nat, i: nat)
    requires TableOffset + 8 * i + EntrySize <= |data|
    requires names + 48 * i + NameRecordSize <= |data|
    ensures StorableName(EntryAt(data, names, i).fileName)
  {
    var n := names + 48 * i;
    DecodeNameStorable(data[n..n + NameFieldSize]);
  }

  /** Every parsed archive has one entry per counted file, each with a storable name. */
  lemma ParseValid(path: string, data: seq<uint8>)
    requires Parse(path, data).Success?
    ensures ValidArchive(Parse(path, data).value)
  {
    var a := Parse(path, data).value;
    ParseEntries(path, data);
    forall i | 0 <= i < |a.fileInfo|
      ensures StorableName(a.fileInfo[i].fileName)
    {
      EntryAtStorable(data, NamesOffset(data), i);
    }
  }

  function EncodeSlot(e: Entry): (slot: seq<uint8>)
    ensures |slot| == EntrySize
  {
    LeBytes(e.dataOffset) + LeBytes(e.dataRunLength)
  }

  function EncodeNameRecord(e: Entry): (rec: seq<uint8>)
    requires StorableName(e.fileName)
    ensures |rec| == NameRecordSize
  {
    Latin1Bytes(e.fileName) + Zeros(NameFieldSize - |e.fileName|)
    + LeBytes(e.u.0) + LeBytes(e.u.1) + LeBytes(e.u.2) + LeBytes(e.u.3)
  }

  function Slots(es: seq<Entry>): (rs: seq<seq<uint8>>)
    ensures |rs| == |es| && forall i :: 0 <= i < |es| ==> rs[i] == EncodeSlot(es[i])
  {
    seq(|es|, i requires 0 <= i < |es| => EncodeSlot(es[i]))
  }

  function NameRecords(es: seq<Entry>): (rs: seq<seq<uint8>>)
    requires forall i :: 0 <= i < |es| ==> StorableName(es[i].fileName)
    ensures |rs| == |es| && forall i :: 0 <= i < |es| ==> rs[i] == EncodeNameRecord(es[i])
  {
    seq(|es|, i requires 0 <= i < |es| => EncodeNameRecord(es[i]))
  }

  /** An AFS image of `a` with its name table at `names`: magic, count, entry table,
      name-table offset word and length, NUL padding, name records. */
  function Encode(a: Archive, names: uint32): (data: seq<uint8>)
    requires ValidArchive(a) && NameTableWord(a.fileCount) + 8 <= names
  {
    Prelude(a, names) + Concat(NameRecords(a.fileInfo))
  }

  /** Everything before the name table. */
  function Prelude(a: Archive, names: uint32): (p: seq<uint8>)
    requires ValidArchive(a) && NameTableWord(a.fileCount) + 8 <= names
  {
    Magic + LeBytes(a.fileCount) + Concat(Slots(a.fileInfo))
    + LeBytes(names) + LeBytes(48 * a.fileCount % 0x1_0000_0000)
    + Zeros(names - NameTableWord(a.fileCount) - 8)
  }

  /** The unknown words of a name record read back as written. */
  lemma DecodeEncodeWords(e: Entry)
    requires StorableName(e.fileName)
    ensures var rec := EncodeNameRecord(e);
      (LeU32(rec, 32), LeU32(rec, 36), LeU32(rec, 40), LeU32(rec, 44)) == e.u
  {
    var rec := EncodeNameRecord(e);
    var w := LeBytes(e.u.0) + LeBytes(e.u.1) + LeBytes(e.u.2) + LeBytes(e.u.3);
    assert rec == rec[..NameFieldSize] + w;
    assert rec[32..36] == w[0..4] == LeBytes(e.u.0);
    assert rec[36..40] == w[4..8] == LeBytes(e.u.1);
    assert rec[40..44] == w[8..12] == LeBytes(e.u.2);
    assert rec[44..48] == w[12..16] == LeBytes(e.u.3);
    LeU32At(rec, 32, e.u.0);
    LeU32At(rec, 36, e.u.1);
    LeU32At(rec, 40, e.u.2);
    LeU32At(rec, 44, e.u.3);
  }

  /** The name field of a name record strips back to the name. */
  lemma DecodeEncodeName(e: Entry)
    requires StorableName(e.fileName)
    ensures DecodeName(EncodeNameRecord(e)[..NameFieldSize]) == e.fileName
  {
    var rec := EncodeNameRecord(e);
    var bytes := Latin1Bytes(e.fileName);
    assert rec[..NameFieldSize] == bytes + Zeros(NameFieldSize - |e.fileName|);
    StripNulPadded(bytes, NameFieldSize - |e.fileName|);
    Latin1OfLatin1Bytes(e.fileName);
  }

  /** A table slot reads back as the offset and run length written into it. */
  lemma DecodeEncodeSlot(e: Entry)
    ensures var slot := EncodeSlot(e);
      LeU32(slot, 0) == e.dataOffset && LeU32(slot, 4) == e.dataRunLength
  {
    var slot := EncodeSlot(e);
    assert slot[0..4] == LeBytes(e.dataOffset);
    assert slot[4..8] == LeBytes(e.dataRunLength);
    LeU32At(slot, 0, e.dataOffset);
    LeU32At(slot, 4, e.dataRunLength);
  }

  /** The entry table of an encoded archive starts at byte 8 and the name-table offset word
      follows it; the prelude ends exactly where the name table begins. */
  lemma PreludeLayout(a: Archive, names: uint32)
    requires ValidArchive(a) && NameTableWord(a.fileCount) + 8 <= names
    ensures var p := Prelude(a, names);
      && |p| == names
      && p[4..8] == LeBytes(a.fileCount)
      && p[TableOffset..NameTableWord(a.fileCount)] == Concat(Slots(a.fileInfo))
      && p[NameTableWord(a.fileCount)..NameTableWord(a.fileCount) + 4] == LeBytes(names)
  {
    var ss := Slots(a.fileInfo);
    ConcatLength(ss, 8);
    var x := Magic + LeBytes(a.fileCount);
    var y := x + Concat(ss);
    var z := y + LeBytes(names);
    var p := Prelude(a, names);
    assert |y| == NameTableWord(a.fileCount);
    assert p == z + LeBytes(48 * a.fileCount % 0x1_0000_0000) + Zeros(names - NameTableWord(a.fileCount) - 8);
    assert p[..|z|] == z;
    assert z[..|y|] == y;
    assert y[..|x|] == x;
  }

  /** Entry `i`'s table slot sits where the parser looks for it. */
  lemma EncodeSlotAt(a: Archive, names: uint32, i: nat)
    requires ValidArchive(a) && NameTableWord(a.fileCount) + 8 <= names
    requires i < a.fileCount
    ensures var data := Encode(a, names);
      var t := TableOffset + 8 * i;
      && t + EntrySize <= names <= |data|
      && data[t..t + EntrySize] == EncodeSlot(a.fileInfo[i])
  {
    var p := Prelude(a, names);
    var ss := Slots(a.fileInfo);
    PreludeLayout(a, names);
    ConcatAt(ss, 8, i);
    var t := 8 * i;
    SliceOfSlice(p, TableOffset, NameTableWord(a.fileCount), t, t + EntrySize);
    SliceOfPrefix(p, Concat(NameRecords(a.fileInfo)), TableOffset + t, TableOffset + t + EntrySize);
  }

  /** Entry `i`'s name record sits where the parser looks for it. */
  lemma EncodeNameRecordAt(a: Archive, names: uint32, i: nat)
    requires ValidArchive(a) && NameTableWord(a.fileCount) + 8 <= names
    requires i < a.fileCount
    ensures var data := Encode(a, names);
      var n := names + 48 * i;
      && n + NameRecordSize <= |data|
      && data[n..n + NameRecordSize] == EncodeNameRecord(a.fileInfo[i])
  {
    var p := Prelude(a, names);
    var nrs := NameRecords(a.fileInfo);
    PreludeLayout(a, names);
    ConcatAt(nrs, 48, i);
    var n := 48 * i;
    assert (p + Concat(nrs))[names + n..names + n + NameRecordSize] == Concat(nrs)[n..n + NameRecordSize];
  }

  /** The header words of an encoded archive read back as written. */
  lemma EncodeHeader(a: Archive, names: uint32)
    requires ValidArchive(a) && NameTableWord(a.fileCount) + 8 <= names
    ensures var data := Encode(a, names);
      && NameTableWord(a.fileCount) + 8 <= |data|
      && LeU32(data, 4) == a.fileCount
      && LeU32(data, NameTableWord(a.fileCount)) == names
  {
    var data := Encode(a, names);
    var p := Prelude(a, names);
    PreludeLayout(a, names);
    assert data[..names] == p;
    var ptr := NameTableWord(a.fileCount);
    assert data[4..8] == p[4..8];
    assert data[ptr..ptr + 4] == p[ptr..ptr + 4];
    LeU32At(data, 4, a.fileCount);
    LeU32At(data, ptr, names);
  }

  /** Entry `i`'s offset and run length read back from an encoded archive. */
  lemma EncodedSlot(a: Archive, names: uint32, i: nat)
    requires ValidArchive(a) && NameTableWord(a.fileCount) + 8 <= names
    requires i < a.fileCount
    ensures var data := Encode(a, names);
      var t := TableOffset + 8 * i;
      && t + EntrySize <= |data|
      && LeU32(data, t) == a.fileInfo[i].dataOffset && LeU32(data, t + 4) == a.fileInfo[i].dataRunLength
  {
    var data := Encode(a, names);
    var t := TableOffset + 8 * i;
    EncodeSlotAt(a, names, i);
    DecodeEncodeSlot(a.fileInfo[i]);
    LeU32OfSlice(data, t, t + EntrySize, 0);
    LeU32OfSlice(data, t, t + EntrySize, 4);
  }

  /** Entry `i`'s name and unknown words read back from an encoded archive. */
  lemma EncodedNameRecord(a: Archive, names: uint32, i: nat)
    requires ValidArchive(a) && NameTableWord(a.fileCount) + 8 <= names
    requires i < a.fileCount
    ensures var data := Encode(a, names);
      var n := names + 48 * i;
      && n + NameRecordSize <= |data|
      && DecodeName(data[n..n + NameFieldSize]) == a.fileInfo[i].fileName
      && (LeU32(data, n + 32), LeU32(data, n + 36), LeU32(data, n + 40), LeU32(data, n + 44)) == a.fileInfo[i].u
  {
    EncodeNameRecordAt(a, names, i);
    NameRecordAt(Encode(a, names), names + 48 * i, a.fileInfo[i]);
  }

  lemma EncodedEntry(a: Archive, names: uint32, i: nat)
    requires ValidArchive(a) && NameTableWord(a.fileCount) + 8 <= names
    requires i < a.fileCount
    ensures TableOffset + 8 * i + EntrySize <= |Encode(a, names)|
    ensures names + 48 * i + NameRecordSize <= |Encode(a, names)|
    ensures EntryAt(Encode(a, names), names, i) == a.fileInfo[i]
  {
    EncodedSlot(a, names, i);
    EncodedNameRecord(a, names, i);
    EntryAtFields(Encode(a, names), names, i, a.fileInfo[i]);
  }

  /** A table slot holding `e`'s encoding reads back as its offset and run length. */
  lemma SlotAt(data: seq<uint8>, t: nat, e: Entry)
    requires t + EntrySize <= |data| && data[t..t + EntrySize] == EncodeSlot(e)
    ensures LeU32(data, t) == e.dataOffset && LeU32(data, t + 4) == e.dataRunLength
  {
    DecodeEncodeSlot(e);
    LeU32OfSlice(data, t, t + EntrySize, 0);
    LeU32OfSlice(data, t, t + EntrySize, 4);
  }

  /** A name record holding `e`'s encoding reads back as its name and unknown words. */
  lemma NameRecordAt(data: seq<uint8>, n: nat, e: Entry)
    requires StorableName(e.fileName)
    requires n + NameRecordSize <= |data| && data[n..n + NameRecordSize] == EncodeNameRecord(e)
    ensures DecodeName(data[n..n + NameFieldSize]) == e.fileName
    ensures (LeU32(data, n + 32), LeU32(data, n + 36), LeU32(data, n + 40), LeU32(data, n + 44)) == e.u
  {
    NameFieldAt(data, n, e);
    WordsAt(data, n, e);
  }

  lemma NameFieldAt(data: seq<uint8>, n: nat, e: Entry)
    requires StorableName(e.fileName)
    requires n + NameRecordSize <= |data| && data[n..n + NameRecordSize] == EncodeNameRecord(e)
    ensures DecodeName(data[n..n + NameFieldSize]) == e.fileName
  {
    DecodeEncodeName(e);
    SliceOfSlice(data, n, n + NameRecordSize, 0, NameFieldSize);
  }

  lemma WordsAt(data: seq<uint8>, n: nat, e: Entry)
    requires StorableName(e.fileName)
    requires n + NameRecordSize <= |data| && data[n..n + NameRecordSize] == EncodeNameRecord(e)
    ensures (LeU32(data, n + 32), LeU32(data, n + 36), LeU32(data, n + 40), LeU32(data, n + 44)) == e.u
  {
    DecodeEncodeWords(e);
    LeU32OfSlice(data, n, n + NameRecordSize, 32);
    LeU32OfSlice(data, n, n + NameRecordSize, 36);
    LeU32OfSlice(data, n, n + NameRecordSize, 40);
    LeU32OfSlice(data, n, n + NameRecordSize, 44);
  }

  /** An entry is its fields: the two slot words, the name field and the four words after it. */
  lemma EntryAtFields(data: seq<uint8>, names: nat, i: nat, e: Entry)
    requires TableOffset + 8 * i + EntrySize <= |data| && names + 48 * i + NameRecordSize <= |data|
    requires var t := TableOffset + 8 * i;
      LeU32(data, t) == e.dataOffset && LeU32(data, t + 4) == e.dataRunLength
    requires var n := names + 48 * i;
      && DecodeName(data[n..n + NameFieldSize]) == e.fileName
      && (LeU32(data, n + 32), LeU32(data, n + 36), LeU32(data, n + 40), LeU32(data, n + 44)) == e.u
    ensures EntryAt(data, names, i) == e
  {
  }

  /** An encoded archive ends with its last name record. */
  lemma EncodeLength(a: Archive, names: uint32)
    requires ValidArchive(a) && NameTableWord(a.fileCount) + 8 <= names
    ensures |Encode(a, names)| == names + 48 * a.fileCount
  {
    PreludeLayout(a, names);
    ConcatLength(NameRecords(a.fileInfo), 48);
  }

  /** An encoded archive passes both of the parser's bounds checks and points it at `names`. */
  lemma EncodeFits(a: Archive, names: uint32)
    requires ValidArchive(a) && NameTableWord(a.fileCount) + 8 <= names
    ensures var data := Encode(a, names);
      && TableFits(data) && LeU32(data, 4) == a.fileCount
      && NamesOffset(data) == names && NamesFit(data)
  {
    EncodeHeader(a, names);
    EncodeLength(a, names);
  }

  /** An image parses to `a` when its bounds checks pass, its header holds `a`'s count and
      each of its entries reads back as `a`'s. */
  lemma ParseOf(path: string, data: seq<uint8>, a: Archive)
    requires TableFits(data) && NamesFit(data)
    requires a.afsFileName == BaseName(path) && a.fileCount == LeU32(data, 4) == |a.fileInfo|
    requires forall i :: 0 <= i < a.fileCount ==> EntryAt(data, NamesOffset(data), i) == a.fileInfo[i]
    ensures Parse(path, data) == Success(a)
  {
    var es := Parse(path, data).value.fileInfo;
    ParseEntries(path, data);
    assert es == a.fileInfo;
  }

  /** Parsing an encoded archive recovers every entry: offsets, lengths, names and unknown
      words, in order. */
  lemma ParseEncode(a: Archive, names: uint32, path: string)
    requires ValidArchive(a) && NameTableWord(a.fileCount) + 8 <= names
    requires a.afsFileName == BaseName(path)
    ensures Parse(path, Encode(a, names)) == Success(a)
  {
    var data := Encode(a, names);
    EncodeFits(a, names);
    forall i | 0 <= i < a.fileCount
      ensures EntryAt(data, names, i) == a.fileInfo[i]
    {
      EncodedEntry(a, names, i);
    }
    ParseOf(path, data, a);
  }

  /** `extractFiles`' directory: left at its default (the working directory), it becomes the
      archive's name up to its first '.' followed by "_files"; any other choice is kept. */
  function OutputDirectory(afsFileName: string, outputdirectory: string, cwd: string): (dir: string)
    ensures outputdirectory != cwd ==> dir == outputdirectory
    ensures outputdirectory == cwd ==>
      var stem := BeforeFirstDot(afsFileName);
      && dir == stem + "_files"
      && afsFileName[..|stem|] == stem
      && '.' !in stem
  {
    if outputdirectory == cwd then BeforeFirstDot(afsFileName) + "_files" else outputdirectory
  }

  datatype Write = Write(path: string, contents: seq<uint8>)

  /** What extraction does: the directory it tries to create, the files it writes in order,
      and the error that stopped it, if any. */
  datatype Extraction = Extraction(directory: string, writes: seq<Write>, failure: Option<Error>)

  /** Where an entry is written: `os.path.join(directory, "%08X_%s" % (dataOffset, name))`. */
  function OutputPath(dir: string, e: Entry): (path: string)
  {
    PathJoin(dir, OffsetName(e.dataOffset, e.fileName))
  }

  /** One pass of the extraction loop: `open` refuses a path holding NUL; otherwise the
      `dataRunLength` bytes at `dataOffset` (fewer when the archive ends first) are written. */
  function ExtractEntry(data: seq<uint8>, dir: string, e: Entry): (r: Result<Write, Error>)
    ensures r.Success? <==> NulFree(OutputPath(dir, e))
    ensures r.Failure? ==> r.error == NulInPath(OutputPath(dir, e))
    ensures r.Success? ==> r.value.path == OutputPath(dir, e)
    ensures r.Success? && e.dataOffset + e.dataRunLength <= |data| ==>
      r.value.contents == data[e.dataOffset..e.dataOffset + e.dataRunLength]
    ensures r.Success? ==> |r.value.contents| <= e.dataRunLength
  {
    var path := OutputPath(dir, e);
    if !NulFree(path) then Failure(NulInPath(path))
    else Success(Write(path, ReadAt(data, e.dataOffset, e.dataRunLength)))
  }

  /** Every pass of the loop, in table order. */
  function Attempts(data: seq<uint8>, dir: string, es: seq<Entry>): (rs: seq<Result<Write, Error>>)
    ensures |rs| == |es| && forall i :: 0 <= i < |es| ==> rs[i] == ExtractEntry(data, dir, es[i])
  {
    seq(|es|, i requires 0 <= i < |es| => ExtractEntry(data, dir, es[i]))
  }

  /** `extractFiles`: one file per entry, in table order, named by `OffsetName` inside the
      output directory and holding the `dataRunLength` bytes at `dataOffset`, until the first
      path that `open` refuses. */
  function ExtractFiles(data: seq<uint8>, a: Archive, outputdirectory: string, cwd: string): (x: Extraction)
    ensures x.directory == OutputDirectory(a.afsFileName, outputdirectory, cwd)
    ensures |x.writes| <= |a.fileInfo|
    ensures x.failure.None? <==> forall i :: 0 <= i < |a.fileInfo| ==> NulFree(OutputPath(x.directory, a.fileInfo[i]))
    ensures x.failure.None? ==> |x.writes| == |a.fileInfo|
    ensures x.failure.Some? ==>
      && |x.writes| < |a.fileInfo|
      && x.failure.value == NulInPath(OutputPath(x.directory, a.fileInfo[|x.writes|]))
      && !NulFree(OutputPath(x.directory, a.fileInfo[|x.writes|]))
    ensures forall i :: 0 <= i < |x.writes| ==>
      var e := a.fileInfo[i];
      && x.writes[i].path == OutputPath(x.directory, e)
      && (e.dataOffset + e.dataRunLength <= |data| ==> x.writes[i].contents == data[e.dataOffset..e.dataOffset + e.dataRunLength])
      && |x.writes[i].contents| <= e.dataRunLength
  {
    var dir := OutputDirectory(a.afsFileName, outputdirectory, cwd);
    var (writes, failure) := UntilFailure(Attempts(data, dir, a.fileInfo));
    Extraction(dir, writes, failure)
  }

  /** Two entries that differ in offset or in name never write the same file. */
  lemma OutputPathsDistinct(data: seq<uint8>, a: Archive, outputdirectory: string, cwd: string, i: nat, j: nat)
    requires i < |a.fileInfo| && j < |a.fileInfo|
    requires a.fileInfo[i].dataOffset != a.fileInfo[j].dataOffset || a.fileInfo[i].fileName != a.fileInfo[j].fileName
    ensures var dir := ExtractFiles(data, a, outputdirectory, cwd).directory;
      OutputPath(dir, a.fileInfo[i]) != OutputPath(dir, a.fileInfo[j])
  {
    var dir := OutputDirectory(a.afsFileName, outputdirectory, cwd);
    var fi := OffsetName(a.fileInfo[i].dataOffset, a.fileInfo[i].fileName);
    var fj := OffsetName(a.fileInfo[j].dataOffset, a.fileInfo[j].fileName);
    OffsetNameInjective(a.fileInfo[i].dataOffset, a.fileInfo[i].fileName, a.fileInfo[j].dataOffset, a.fileInfo[j].fileName);
    assert IsHexDigit(fi[..8][0]) && IsHexDigit(fj[..8][0]);
    PathJoinInjective(dir, fi, fj);
  }

  /** Extraction of a parsed archive stops only at a name holding an interior NUL: with a
      NUL-free directory and NUL-free names every entry is written. */
  lemma NulFreeNamesExtractAll(data: seq<uint8>, a: Archive, outputdirectory: string, cwd: string)
    requires NulFree(OutputDirectory(a.afsFileName, outputdirectory, cwd))
    requires forall i :: 0 <= i < |a.fileInfo| ==> NulFree(a.fileInfo[i].fileName)
    ensures var x := ExtractFiles(data, a, outputdirectory, cwd);
      x.failure.None? && |x.writes| == |a.fileInfo|
  {
    var dir := OutputDirectory(a.afsFileName, outputdirectory, cwd);
    forall i | 0 <= i < |a.fileInfo|
      ensures NulFree(OutputPath(dir, a.fileInfo[i]))
    {
      OffsetNameNulFree(a.fileInfo[i].dataOffset, a.fileInfo[i].fileName);
      PathJoinNulFree(dir, OffsetName(a.fileInfo[i].dataOffset, a.fileInfo[i].fileName));
    }
  }
}

=== FILE: arch_gmp.dfy ===
/** What arch/gmp.py adds to the GMP reader: a caller-chosen output directory. Its parser is
    the same code as gmp.py's and is modelled by `Gmp.Parse`. */
module GmpArch {
  import opened Text

  /** arch/gmp.py `extractFiles`: an output directory with no directory part is taken
      relative to the working directory `cwd`; any other is used as a parent under which
      "<archive name>_files" is placed. Both go through `os.path.join`. */
  function OutputDirectory(outputdirectory: string, cwd: string, gmpFileName: string): (dir: string)
    ensures '/' !in outputdirectory ==>
      dir == if cwd == [] || cwd[|cwd| - 1] == '/' then cwd + outputdirectory
             else cwd + "/" + outputdirectory
    ensures '/' in outputdirectory ==>
      var files := gmpFileName + "_files";
      dir == if gmpFileName != [] && gmpFileName[0] == '/' then files
             else if outputdirectory[|outputdirectory| - 1] == '/' then outputdirectory + files
             else outputdirectory + "/" + files
  {
    if SplitHead(outputdirectory) == [] then PathJoin(cwd, outputdirectory)
    else PathJoin(outputdirectory, gmpFileName + "_files")
  }

  /** The last component of the chosen directory is what the caller asked for: the name
      itself when it has no directory part, and "<archive name>_files" otherwise. */
  lemma OutputDirectoryBaseName(outputdirectory: string, cwd: string, gmpFileName: string)
    requires '/' !in gmpFileName
    ensures var dir := OutputDirectory(outputdirectory, cwd, gmpFileName);
      && ('/' !in outputdirectory ==> BaseName(dir) == outputdirectory)
      && ('/' in outputdirectory ==> BaseName(dir) == gmpFileName + "_files")
  {
    if '/' !in outputdirectory {
      JoinedBaseName(cwd, outputdirectory);
    } else {
      var files := gmpFileName + "_files";
      assert '/' !in files by {
        assert forall k :: 0 <= k < |gmpFileName| ==> files[k] == gmpFileName[k];
      }
      JoinedBaseName(outputdirectory, files);
    }
  }

  /** `os.path.join(a, b)` of a '/'-free `b` has `b` as its base name. */
  lemma JoinedBaseName(a: string, b: string)
    requires '/' !in b
    ensures BaseName(PathJoin(a, b)) == b
  {
    if a == [] || a[|a| - 1] == '/' {
      BaseNameAfterSlash(a, b);
    } else {
      BaseNameAfterSlash(a + "/", b);
      assert a + "/" + b == (a + "/") + b;
    }
  }
}

=== FILE: bytes.dfy ===
/** Byte-level helpers shared by the archive readers: the archive is an immutable byte
    sequence, and every field the Python readers obtain with `struct.unpack("<I", …)`,
    `read(n).strip("\0")` or a byte-by-byte NUL scan is a pure function of it here.
 */
module Bytes {
  import opened Outcomes

  type uint8 = x: int | 0 <= x < 0x100
  type uint32 = x: int | 0 <= x < 0x1_0000_0000

  /** The 32-bit little-endian unsigned value of the four bytes at `off` (struct format "<I"). */
  function LeU32(data: seq<uint8>, off: nat): (w: uint32)
    requires off + 4 <= |data|
  {
    data[off] as int + 0x100 * data[off + 1] as int + 0x1_0000 * data[off + 2] as int
      + 0x100_0000 * data[off + 3] as int
  }

  /** The four little-endian bytes that encode `v`, least significant first. */
  function LeBytes(v: uint32): (b: seq<uint8>)
    ensures |b| == 4
  {
    [v % 0x100, (v / 0x100) % 0x100, (v / 0x1_0000) % 0x100, v / 0x100_0000]
  }

  /** Decoding the encoding of a value gives the value back. */
  lemma LeU32OfLeBytes(v: uint32)
    ensures LeU32(LeBytes(v), 0) == v
  {
    var b := LeBytes(v);
    var q1 := v / 0x100;
    var q2 := v / 0x1_0000;
    assert v == b[0] as int + 0x100 * q1;
    assert q1 == b[1] as int + 0x100 * (q1 / 0x100);
    assert q1 / 0x100 == q2;
    assert q2 == b[2] as int + 0x100 * b[3] as int;
  }

  /** Splitting `x` into its low byte and the rest. */
  lemma DivMod256(x: int, lo: int, hi: int)
    requires 0 <= lo < 0x100 && x == lo + 0x100 * hi
    ensures x % 0x100 == lo && x / 0x100 == hi
  {
  }

  /** Encoding the decoded value gives back exactly the four bytes it was read from. */
  lemma LeBytesOfLeU32(data: seq<uint8>, off: nat)
    requires off + 4 <= |data|
    ensures LeBytes(LeU32(data, off)) == data[off..off + 4]
  {
    var v := LeU32(data, off);
    var a, b, c, d := data[off] as int, data[off + 1] as int, data[off + 2] as int, data[off + 3] as int;
    var q1 := b + 0x100 * (c + 0x100 * d);
    var q2 := c + 0x100 * d;
    DivMod256(v, a, q1);
    DivMod256(q1, b, q2);
    DivMod256(q2, c, d);
    assert v / 0x1_0000 == q1 / 0x100;
    assert v / 0x100_0000 == q2 / 0x100;
  }

  /** A u32 read at `off` sees the value whose encoding sits there. */
  lemma LeU32At(data: seq<uint8>, off: nat, v: uint32)
    requires off + 4 <= |data|
    requires data[off..off + 4] == LeBytes(v)
    ensures LeU32(data, off) == v
  {
    LeU32OfLeBytes(v);
    assert LeU32(data, off) == LeU32(data[off..off + 4], 0);
  }

  /** `n` zero bytes, the padding of a fixed-width name field. */
  function Zeros(n: nat): (z: seq<uint8>)
    ensures |z| == n && forall k :: 0 <= k < n ==> z[k] == 0
  {
    seq(n, _ => 0)
  }

  /** The number of NUL bytes that open `s`. */
  function LeadingNuls(s: seq<uint8>): (n: nat)
    ensures n <= |s|
    decreases |s|
  {
    if |s| > 0 && s[0] == 0 then 1 + LeadingNuls(s[1..]) else 0
  }

  /** The leading run is all NUL and ends at the first byte that is not. */
  lemma {:induction false} LeadingNulsSpec(s: seq<uint8>)
    ensures var n := LeadingNuls(s);
      && (forall k :: 0 <= k < n ==> s[k] == 0)
      && (n < |s| ==> s[n] != 0)
    decreases |s|
  {
    if |s| > 0 && s[0] == 0 {
      LeadingNulsSpec(s[1..]);
      var n := LeadingNuls(s);
      forall k | 0 <= k < n
        ensures s[k] == 0
      {
        if k > 0 {
          assert s[k] == s[1..][k - 1];
        }
      }
      if n < |s| {
        assert s[n] == s[1..][n - 1];
      }
    }
  }

  /** The number of NUL bytes that close `s`. */
  function TrailingNuls(s: seq<uint8>): (n: nat)
    ensures n <= |s|
    decreases |s|
  {
    if |s| > 0 && s[|s| - 1] == 0 then 1 + TrailingNuls(s[..|s| - 1]) else 0
  }

  /** The trailing run is all NUL and starts just after the last byte that is not. */
  lemma {:induction false} TrailingNulsSpec(s: seq<uint8>)
    ensures var n := TrailingNuls(s);
      && (forall k :: |s| - n <= k < |s| ==> s[k] == 0)
      && (n < |s| ==> s[|s| - n - 1] != 0)
    decreases |s|
  {
    if |s| > 0 && s[|s| - 1] == 0 {
      var init := s[..|s| - 1];
      TrailingNulsSpec(init);
      var n := TrailingNuls(s);
      forall k | |s| - n <= k < |s|
        ensures s[k] == 0
      {
        if k < |s| - 1 {
          assert s[k] == init[k];
        }
      }
      if n < |s| {
        assert s[|s| - n - 1] == init[|init| - (n - 1) - 1];
      }
    }
  }

  /** Python's `s.strip("\0")`: `s` without its leading and trailing NUL bytes. */
  function StripNul(s: seq<uint8>): (r: seq<uint8>)
    ensures |r| <= |s|
  {
    var lead := LeadingNuls(s);
    if lead == |s| then []
    else
      var trail := TrailingNuls(s);
      if lead <= |s| - trail then s[lead..|s| - trail] else []
  }

  /** What stripping keeps: the contiguous middle of `s`, outside of which every byte is NUL,
      neither starting nor ending with NUL (NULs inside it are kept). It is empty exactly
      when `s` is all NUL. */
  lemma StripNulSpec(s: seq<uint8>)
    ensures var r := StripNul(s);
      && LeadingNuls(s) + |r| <= |s|
      && r == s[LeadingNuls(s)..LeadingNuls(s) + |r|]
      && (forall k :: LeadingNuls(s) + |r| <= k < |s| ==> s[k] == 0)
      && (r != [] ==> r[0] != 0 && r[|r| - 1] != 0)
      && (r == [] <==> forall k :: 0 <= k < |s| ==> s[k] == 0)
  {
    var lead, trail := LeadingNuls(s), TrailingNuls(s);
    LeadingNulsSpec(s);
    TrailingNulsSpec(s);
    if lead < |s| {
      assert s[lead] != 0;
      assert lead < |s| - trail;
      assert s[|s| - trail - 1] != 0;
    }
  }

  /** The stripped middle is unique: any split of `s` into NUL prefix, a part that neither
      starts nor ends with NUL, and NUL suffix strips to that part. */
  lemma StripNulUnique(s: seq<uint8>, i: nat, j: nat)
    requires i <= j <= |s|
    requires forall k :: 0 <= k < i ==> s[k] == 0
    requires forall k :: j <= k < |s| ==> s[k] == 0
    requires i < j ==> s[i] != 0 && s[j - 1] != 0
    ensures StripNul(s) == s[i..j]
  {
    var r := StripNul(s);
    var lead := LeadingNuls(s);
    LeadingNulsSpec(s);
    StripNulSpec(s);
    if i < j {
      assert lead == i;
      var e := lead + |r|;
      assert e == j;
    }
  }

  /** A name padded with NULs strips back to the name when it neither starts nor ends with NUL. */
  lemma StripNulPadded(name: seq<uint8>, pad: nat)
    requires name != [] ==> name[0] != 0 && name[|name| - 1] != 0
    ensures StripNul(name + Zeros(pad)) == name
  {
    var s := name + Zeros(pad);
    StripNulUnique(s, 0, |name|);
    assert s[0..|name|] == name;
  }

  /** Stripping is idempotent. */
  lemma StripNulIdempotent(s: seq<uint8>)
    ensures StripNul(StripNul(s)) == StripNul(s)
  {
    var r := StripNul(s);
    StripNulSpec(s);
    StripNulUnique(r, 0, |r|);
    assert r[0..|r|] == r;
  }

  /** The position of the first NUL byte at or after `pos`, if there is one. */
  function FirstNul(data: seq<uint8>, pos: nat): (r: Option<nat>)
    requires pos <= |data|
    ensures r.Some? ==> pos <= r.value < |data|
    decreases |data| - pos
  {
    if pos == |data| then None
    else if data[pos] == 0 then Some(pos)
    else FirstNul(data, pos + 1)
  }

  /** `FirstNul` finds a NUL with none before it, and finds none exactly when there is none. */
  lemma {:induction false} FirstNulSpec(data: seq<uint8>, pos: nat)
    requires pos <= |data|
    ensures var r := FirstNul(data, pos);
      && (r.Some? ==> data[r.value] == 0 && forall k :: pos <= k < r.value ==> data[k] != 0)
      && (r.None? <==> forall k :: pos <= k < |data| ==> data[k] != 0)
    decreases |data| - pos
  {
    if pos < |data| && data[pos] != 0 {
      FirstNulSpec(data, pos + 1);
    }
  }

  /** The NUL-terminated string that starts at `off`: the bytes up to but excluding the first
      NUL. There is none when no NUL follows `off` (including an `off` at or past the end). */
  function CString(data: seq<uint8>, off: nat): (r: Option<seq<uint8>>)
  {
    if off >= |data| then None
    else
      match FirstNul(data, off)
      case None => None
      case Some(e) => Some(data[off..e])
  }

  /** A found string lies in the data, contains no NUL and is followed by one; there is none
      exactly when no NUL follows `off`. */
  lemma CStringSpec(data: seq<uint8>, off: nat)
    ensures var r := CString(data, off);
      && (r.Some? ==> off + |r.value| < |data| && data[off..off + |r.value|] == r.value)
      && (r.Some? ==> data[off + |r.value|] == 0 && 0 !in r.value)
      && (r.None? <==> forall k :: off <= k < |data| ==> data[k] != 0)
  {
    if off < |data| {
      FirstNulSpec(data, off);
      var r := CString(data, off);
      if r.Some? {
        var n := r.value;
        forall k | 0 <= k < |n|
          ensures n[k] != 0
        {
          assert n[k] == data[off + k];
        }
      }
    }
  }

  /** A NUL-terminated name is determined by where it starts: any NUL-free run ending at a NUL
      is the one `CString` finds. */
  lemma CStringUnique(data: seq<uint8>, off: nat, name: seq<uint8>)
    requires off + |name| < |data| && data[off..off + |name|] == name
    requires data[off + |name|] == 0 && 0 !in name
    ensures CString(data, off) == Some(name)
  {
    var r := CString(data, off);
    CStringSpec(data, off);
    FirstNulSpec(data, off);
    forall k | off <= k < off + |name|
      ensures data[k] != 0
    {
      assert data[k] == name[k - off];
    }
    var n := r.value;
    assert |n| == |name|;
  }

  /** A NUL-terminated string inside the second part of a concatenation is found at its
      shifted offset. */
  lemma CStringInSuffix(p: seq<uint8>, q: seq<uint8>, s: nat, name: seq<uint8>)
    requires s + |name| < |q| && q[s..s + |name|] == name
    requires q[s + |name|] == 0 && 0 !in name
    ensures CString(p + q, |p| + s) == Some(name)
  {
    SliceOfSuffix(p, q, s, s + |name|);
    assert (p + q)[|p| + s + |name|] == q[s + |name|];
    CStringUnique(p + q, |p| + s, name);
  }

  /** Records laid end to end. */
  function Concat(rs: seq<seq<uint8>>): (b: seq<uint8>)
  {
    if rs == [] then [] else rs[0] + Concat(rs[1..])
  }

  /** Records of one width `w` lay out to `w` bytes each. */
  lemma {:induction false} ConcatLength(rs: seq<seq<uint8>>, w: nat)
    requires forall k :: 0 <= k < |rs| ==> |rs[k]| == w
    ensures |Concat(rs)| == w * |rs|
  {
    if rs != [] {
      ConcatLength(rs[1..], w);
      assert w * |rs| == w + w * (|rs| - 1);
    }
  }

  /** Laying out records of one width `w`, record `i` occupies bytes `w*i .. w*i + w`. */
  lemma {:induction false} ConcatAt(rs: seq<seq<uint8>>, w: nat, i: nat)
    requires forall k :: 0 <= k < |rs| ==> |rs[k]| == w
    requires i < |rs|
    ensures w * i + w <= |Concat(rs)| && Concat(rs)[w * i..w * i + w] == rs[i]
  {
    var rest := rs[1..];
    ConcatLength(rs, w);
    assert Concat(rs) == rs[0] + Concat(rest);
    if i > 0 {
      ConcatAt(rest, w, i - 1);
      var j := w * (i - 1);
      assert w * i == w + j;
      assert (rs[0] + Concat(rest))[w + j..w + j + w] == Concat(rest)[j..j + w];
    }
  }

  /** A slice of the first part of a concatenation. */
  lemma SliceOfPrefix(p: seq<uint8>, q: seq<uint8>, lo: nat, hi: nat)
    requires lo <= hi <= |p|
    ensures (p + q)[lo..hi] == p[lo..hi]
  {
  }

  /** A slice of the second part of a concatenation. */
  lemma SliceOfSuffix(p: seq<uint8>, q: seq<uint8>, lo: nat, hi: nat)
    requires lo <= hi <= |q|
    ensures |p| + hi <= |p + q| && (p + q)[|p| + lo..|p| + hi] == q[lo..hi]
  {
  }

  /** A u32 read inside a slice is the same u32 read from the whole. */
  lemma LeU32OfSlice(data: seq<uint8>, lo: nat, hi: nat, k: nat)
    requires lo <= hi <= |data| && k + 4 <= hi - lo
    ensures LeU32(data[lo..hi], k) == LeU32(data, lo + k)
  {
  }

  /** A slice of a slice. */
  lemma SliceOfSlice(s: seq<uint8>, a: nat, b: nat, lo: nat, hi: nat)
    requires a <= b <= |s| && lo <= hi <= b - a
    ensures s[a..b][lo..hi] == s[a + lo..a + hi]
  {
    forall k | 0 <= k < hi - lo
      ensures s[a..b][lo..hi][k] == s[a + lo..a + hi][k]
    {
      assert s[a..b][lo..hi][k] == s[a..b][lo + k];
    }
  }

  /** Python's `f.seek(off); f.read(len)`: at most `len` bytes from `off`, fewer when the
      archive ends first, none when `off` is past the end. */
  function ReadAt(data: seq<uint8>, off: nat, len: nat): (r: seq<uint8>)
    ensures off + len <= |data| ==> r == data[off..off + len]
    ensures off + len > |data| ==> r == data[if off < |data| then off else |data|..]
  {
    if off >= |data| then []
    else if off + len <= |data| then data[off..off + len]
    else data[off..]
  }

  /** Python 2 byte strings read as text: each byte is the character with that code. */
  function Latin1(b: seq<uint8>): (s: string)
  {
    seq(|b|, k requires 0 <= k < |b| => b[k] as char)
  }

  /** Text every character of which is a byte value, so that `Latin1` can produce it. */
  predicate IsLatin1(s: string)
  {
    forall k :: 0 <= k < |s| ==> s[k] as int < 0x100
  }

  /** The bytes of Latin-1 text, the inverse of `Latin1` on text that `IsLatin1` accepts
      (other characters keep only their low byte). */
  function Latin1Bytes(s: string): (b: seq<uint8>)
    ensures |b| == |s|
  {
    seq(|s|, k requires 0 <= k < |s| => (s[k] as int % 0x100) as uint8)
  }

  /** Writing text as bytes and reading them back gives the same text. */
  lemma Latin1OfLatin1Bytes(s: string)
    requires IsLatin1(s)
    ensures Latin1(Latin1Bytes(s)) == s
  {
  }

  /** Text without NUL has bytes without NUL. */
  lemma Latin1BytesNoNul(s: string)
    requires IsLatin1(s) && '\0' !in s
    ensures 0 !in Latin1Bytes(s)
  {
    var b := Latin1Bytes(s);
    forall k | 0 <= k < |b|
      ensures b[k] != 0
    {
      assert s[k] in s;
    }
  }

  /** Bytes without NUL read as text without NUL. */
  lemma Latin1NoNul(b: seq<uint8>)
    requires 0 !in b
    ensures '\0' !in Latin1(b)
  {
    var s := Latin1(b);
    forall k | 0 <= k < |s|
      ensures s[k] != '\0'
    {
      assert b[k] in b;
    }
  }

  /** Reading bytes as text and writing the text back gives the same bytes. */
  lemma Latin1BytesOfLatin1(b: seq<uint8>)
    ensures IsLatin1(Latin1(b)) && Latin1Bytes(Latin1(b)) == b
  {
  }
}

=== FILE: dar.dfy ===
/** The DAR container directory (dar.py).

    Layout, all fields little-endian u32:
      header at 0:                      fileCount, fileDataOffset, fileNamesOffset, fileInfoOffset
      record i at fileInfoOffset + 16*i: filenameOffset, compressedSize, fileSize, fileOffset
      name of record i:                 the NUL-terminated bytes at filenameOffset

    Records are read in index order, each followed by its name, so the first record that
    cannot be read decides the error.
 */
module Dar {
  import opened Outcomes
  import opened Bytes
  import opened Text

  const HeaderSize: nat := 16
  const RecordSize: nat := 16

  datatype Entry = Entry(
    compressedSize: uint32,
    fileSize: uint32,
    fileOffset: uint32,
    compressed: bool,
    fileName: string)

  datatype Archive = Archive(
    darFileName: string,
    fileCount: uint32,
    fileDataOffset: uint32,
    fileNamesOffset: uint32,
    fileInfoOffset: uint32,
    fileInfo: seq<Entry>)

  /** Why a DAR image has no directory, or why a member cannot be extracted.
      - Truncated: a `struct.unpack` met a short read
      - UnterminatedName(index): no NUL follows the name offset of that record, where the
        byte-by-byte name loop of `__init__` would never end
      - IndexOutOfRange: `extractFile` was given an index the entry list does not have
      - NulInPath(path): `open` refused an output path holding a NUL byte */
  datatype Error = Truncated | UnterminatedName(index: nat) | IndexOutOfRange | NulInPath(path: string)

  /** Where record `i` of a table at `infoOffset` starts. */
  function RecordAt(infoOffset: nat, i: nat): (off: nat)
  {
    infoOffset + 16 * i
  }

  /** Record `i` of the table at `infoOffset`, with the name it points at. */
  function DecodeRecord(data: seq<uint8>, infoOffset: nat, i: nat): (r: Result<Entry, Error>)
  {
    var o := RecordAt(infoOffset, i);
    if o + RecordSize > |data| then Failure(Truncated)
    else
      var compressedSize := LeU32(data, o + 4);
      match CString(data, LeU32(data, o))
      case None => Failure(UnterminatedName(i))
      case Some(name) =>
        Success(Entry(compressedSize, LeU32(data, o + 8), LeU32(data, o + 12), compressedSize != 0, Latin1(name)))
  }

  /** What decoding record `i` yields: the truncation error exactly when the 16-byte record
      runs past the end; otherwise the unterminated-name error exactly when no NUL follows the
      name offset; otherwise the four words, the compression flag set exactly when the
      compressed size is not zero, and a NUL-free name that ends at the first NUL after the
      name offset. */
  lemma DecodeRecordSpec(data: seq<uint8>, infoOffset: nat, i: nat)
    ensures var o := RecordAt(infoOffset, i);
      var r := DecodeRecord(data, infoOffset, i);
      && (r == Failure(Truncated) <==> o + RecordSize > |data|)
      && (r.Failure? ==> r.error == Truncated || r.error == UnterminatedName(i))
      && (o + RecordSize <= |data| ==>
           var nameOffset := LeU32(data, o);
           && (r.Failure? <==> forall k :: nameOffset <= k < |data| ==> data[k] != 0)
           && (r.Success? ==>
                var e := r.value;
                && e.compressedSize == LeU32(data, o + 4)
                && e.fileSize == LeU32(data, o + 8)
                && e.fileOffset == LeU32(data, o + 12)
                && (e.compressed <==> e.compressedSize != 0)
                && nameOffset + |e.fileName| < |data|
                && data[nameOffset + |e.fileName|] == 0
                && IsLatin1(e.fileName)
                && Latin1Bytes(e.fileName) == data[nameOffset..nameOffset + |e.fileName|]
                && 0 !in Latin1Bytes(e.fileName)))
  {
    var o := RecordAt(infoOffset, i);
    if o + RecordSize <= |data| {
      var nameOffset := LeU32(data, o);
      CStringSpec(data, nameOffset);
      match CString(data, nameOffset)
      case None =>
      case Some(name) =>
        Latin1BytesOfLatin1(name);
    }
  }

  /** The outcome of reading each of the `count` records, in index order. */
  function Records(data: seq<uint8>, infoOffset: nat, count: nat): (rs: seq<Result<Entry, Error>>)
    ensures |rs| == count && forall j :: 0 <= j < count ==> rs[j] == DecodeRecord(data, infoOffset, j)
  {
    seq(count, j requires 0 <= j < count => DecodeRecord(data, infoOffset, j))
  }

  /** `DAR_File.__init__`: the 16-byte header, then `fileCount` records read in index order
      from `fileInfoOffset`, each with its NUL-terminated name. The archive's name is the last
      component of its path. */
  function Parse(path: string, data: seq<uint8>): (r: Result<Archive, Error>)
    ensures |data| < HeaderSize ==> r == Failure(Truncated)
    ensures |data| >= HeaderSize ==>
      var count, infoOffset := LeU32(data, 0), LeU32(data, 12);
      && (r.Success? <==> forall j :: 0 <= j < count ==> Records(data, infoOffset, count)[j].Success?)
      && (r.Success? ==>
           && r.value.darFileName == BaseName(path)
           && r.value.fileCount == count
           && r.value.fileDataOffset == LeU32(data, 4)
           && r.value.fileNamesOffset == LeU32(data, 8)
           && r.value.fileInfoOffset == infoOffset
           && |r.value.fileInfo| == count
           && forall k :: 0 <= k < count ==> Records(data, infoOffset, count)[k] == Success(r.value.fileInfo[k]))
  {
    if |data| < HeaderSize then Failure(Truncated)
    else
      var count, infoOffset := LeU32(data, 0), LeU32(data, 12);
      var entries :- Collect(Records(data, infoOffset, count));
      Success(Archive(BaseName(path), count, LeU32(data, 4), LeU32(data, 8), infoOffset, entries))
  }

  /** A failed parse reports the error of the first record that cannot be read, or
      `Truncated` when even the header is short. */
  lemma ParseFirstError(path: string, data: seq<uint8>)
    requires Parse(path, data).Failure?
    ensures |data| >= HeaderSize ==> exists j :: (0 <= j < LeU32(data, 0)
      && DecodeRecord(data, LeU32(data, 12), j) == Failure(Parse(path, data).error)
      && forall k :: 0 <= k < j ==> DecodeRecord(data, LeU32(data, 12), k).Success?)
  {
    if |data| >= HeaderSize {
      CollectFirstFailure(Records(data, LeU32(data, 12), LeU32(data, 0)));
    }
  }

  /** A name the format can hold: byte-valued and free of NUL, since NUL ends it. */
  predicate StorableName(name: string)
  {
    IsLatin1(name) && '\0' !in name
  }

  /** What every parsed archive satisfies: one entry per counted file, the compression flag
      agreeing with the compressed size, and a storable name on each entry. */
  predicate ValidArchive(a: Archive)
  {
    && a.fileCount == |a.fileInfo|
    && forall i :: 0 <= i < |a.fileInfo| ==>
         && (a.fileInfo[i].compressed <==> a.fileInfo[i].compressedSize != 0)
         && StorableName(a.fileInfo[i].fileName)
  }

  lemma ParseValid(path: string, data: seq<uint8>)
    requires Parse(path, data).Success?
    ensures ValidArchive(Parse(path, data).value)
  {
    var a := Parse(path, data).value;
    forall i | 0 <= i < |a.fileInfo|
      ensures (a.fileInfo[i].compressed <==> a.fileInfo[i].compressedSize != 0)
      ensures StorableName(a.fileInfo[i].fileName)
    {
      DecodedValid(data, a.fileInfoOffset, i, a.fileInfo[i]);
    }
  }

  /** A decoded record has the compression flag of its compressed size and a storable name. */
  lemma DecodedValid(data: seq<uint8>, infoOffset: nat, i: nat, e: Entry)
    requires DecodeRecord(data, infoOffset, i) == Success(e)
    ensures (e.compressed <==> e.compressedSize != 0) && StorableName(e.fileName)
  {
    DecodeRecordSpec(data, infoOffset, i);
    Latin1NoNul(Latin1Bytes(e.fileName));
  }

  /** The names laid end to end, each followed by its NUL. */
  function NameBlock(names: seq<string>): (b: seq<uint8>)
  {
    if names == [] then [] else Latin1Bytes(names[0]) + [0] + NameBlock(names[1..])
  }

  /** Where name `i` starts inside `NameBlock(names)`. */
  function NameStart(names: seq<string>, i: nat): (off: nat)
    requires i <= |names|
  {
    if i == 0 then 0 else |names[0]| + 1 + NameStart(names[1..], i - 1)
  }

  /** The block is as long as all names and their terminators. */
  lemma {:induction false} NameBlockLength(names: seq<string>)
    ensures |NameBlock(names)| == NameStart(names, |names|)
  {
    if names != [] {
      NameBlockLength(names[1..]);
    }
  }

  /** Name `i` sits at `NameStart(names, i)` and is followed by its NUL. */
  lemma {:induction false} NameBlockAt(names: seq<string>, i: nat)
    requires i < |names|
    ensures var s := NameStart(names, i);
      && s + |names[i]| < |NameBlock(names)|
      && NameBlock(names)[s..s + |names[i]|] == Latin1Bytes(names[i])
      && NameBlock(names)[s + |names[i]|] == 0
  {
    var head := Latin1Bytes(names[0]) + [0];
    var rest := NameBlock(names[1..]);
    assert NameBlock(names) == head + rest;
    if i > 0 {
      NameBlockAt(names[1..], i - 1);
      var s := NameStart(names[1..], i - 1);
      assert names[1..][i - 1] == names[i];
      assert NameStart(names, i) == |head| + s;
      assert (head + rest)[|head| + s..|head| + s + |names[i]|] == rest[s..s + |names[i]|];
    }
  }

  /** Whatever precedes the block, name `i` is the NUL-terminated string at its start. */
  lemma NameBlockCString(p: seq<uint8>, names: seq<string>, i: nat)
    requires i < |names| && IsLatin1(names[i]) && '\0' !in names[i]
    ensures CString(p + NameBlock(names), |p| + NameStart(names, i)) == Some(Latin1Bytes(names[i]))
  {
    NameBlockAt(names, i);
    Latin1BytesNoNul(names[i]);
    CStringInSuffix(p, NameBlock(names), NameStart(names, i), Latin1Bytes(names[i]));
  }

  /** The names of an archive's entries. */
  function Names(es: seq<Entry>): (ns: seq<string>)
    ensures |ns| == |es| && forall i :: 0 <= i < |es| ==> ns[i] == es[i].fileName
  {
    seq(|es|, i requires 0 <= i < |es| => es[i].fileName)
  }

  /** Where the name block of an encoded archive starts: right after the record table. */
  function NamesBase(a: Archive): (off: nat)
  {
    a.fileInfoOffset + 16 * |a.fileInfo|
  }

  /** An image of `a` can be written with 32-bit name offsets. */
  predicate Encodable(a: Archive)
  {
    && ValidArchive(a)
    && a.fileInfoOffset >= HeaderSize
    && NamesBase(a) + NameStart(Names(a.fileInfo), |a.fileInfo|) < 0x1_0000_0000
  }

  lemma {:induction false} NameStartMonotone(names: seq<string>, i: nat, j: nat)
    requires i <= j <= |names|
    ensures NameStart(names, i) <= NameStart(names, j)
  {
    if i > 0 {
      NameStartMonotone(names[1..], i - 1, j - 1);
    }
  }

  /** Where the name of entry `i` of an encoded archive starts. */
  function NameOffset(a: Archive, i: nat): (off: uint32)
    requires Encodable(a) && i < |a.fileInfo|
  {
    NameStartMonotone(Names(a.fileInfo), i, |a.fileInfo|);
    NamesBase(a) + NameStart(Names(a.fileInfo), i)
  }

  /** A 16-byte record for `e` whose name is at `nameOffset`. */
  function EncodeRecord(nameOffset: uint32, e: Entry): (rec: seq<uint8>)
    ensures |rec| == RecordSize
  {
    LeBytes(nameOffset) + LeBytes(e.compressedSize) + LeBytes(e.fileSize) + LeBytes(e.fileOffset)
  }

  /** The words of a record read back as written. */
  lemma DecodeEncodeRecord(nameOffset: uint32, e: Entry)
    ensures var rec := EncodeRecord(nameOffset, e);
      && LeU32(rec, 0) == nameOffset && LeU32(rec, 4) == e.compressedSize
      && LeU32(rec, 8) == e.fileSize && LeU32(rec, 12) == e.fileOffset
  {
    var rec := EncodeRecord(nameOffset, e);
    assert rec[0..4] == LeBytes(nameOffset);
    assert rec[4..8] == LeBytes(e.compressedSize);
    assert rec[8..12] == LeBytes(e.fileSize);
    assert rec[12..16] == LeBytes(e.fileOffset);
    LeU32At(rec, 0, nameOffset);
    LeU32At(rec, 4, e.compressedSize);
    LeU32At(rec, 8, e.fileSize);
    LeU32At(rec, 12, e.fileOffset);
  }

  function RecordImages(a: Archive): (rs: seq<seq<uint8>>)
    requires Encodable(a)
    ensures |rs| == |a.fileInfo|
    ensures forall i :: 0 <= i < |rs| ==> rs[i] == EncodeRecord(NameOffset(a, i), a.fileInfo[i])
  {
    seq(|a.fileInfo|, i requires 0 <= i < |a.fileInfo| => EncodeRecord(NameOffset(a, i), a.fileInfo[i]))
  }

  /** Everything before the name block: the header, NUL padding up to `fileInfoOffset`, the
      records. The data and names offsets of the header are written as given; the reader
      never follows them. */
  function Prelude(a: Archive): (p: seq<uint8>)
    requires Encodable(a)
  {
    LeBytes(a.fileCount) + LeBytes(a.fileDataOffset) + LeBytes(a.fileNamesOffset) + LeBytes(a.fileInfoOffset)
    + Zeros(a.fileInfoOffset - HeaderSize) + Concat(RecordImages(a))
  }

  /** A DAR image of `a`: header, padding, records, then the NUL-terminated names. */
  function Encode(a: Archive): (data: seq<uint8>)
    requires Encodable(a)
  {
    Prelude(a) + NameBlock(Names(a.fileInfo))
  }

  /** The prelude ends where the name block begins. */
  lemma PreludeLength(a: Archive)
    requires Encodable(a)
    ensures |Prelude(a)| == NamesBase(a)
  {
    ConcatLength(RecordImages(a), 16);
  }

  /** The prelude ends where the name block begins, with the header words and every record
      where the reader looks for them. */
  lemma PreludeLayout(a: Archive)
    requires Encodable(a)
    ensures var p := Prelude(a);
      && |p| == NamesBase(a)
      && p[0..4] == LeBytes(a.fileCount) && p[4..8] == LeBytes(a.fileDataOffset)
      && p[8..12] == LeBytes(a.fileNamesOffset) && p[12..16] == LeBytes(a.fileInfoOffset)
      && p[a.fileInfoOffset..] == Concat(RecordImages(a))
  {
    var rs := RecordImages(a);
    ConcatLength(rs, 16);
    var header := LeBytes(a.fileCount) + LeBytes(a.fileDataOffset) + LeBytes(a.fileNamesOffset) + LeBytes(a.fileInfoOffset);
    var p := Prelude(a);
    assert p == header + Zeros(a.fileInfoOffset - HeaderSize) + Concat(rs);
    assert p[..16] == header;
  }

  /** The header words of an encoded archive read back as written. */
  lemma EncodeHeader(a: Archive)
    requires Encodable(a)
    ensures var data := Encode(a);
      && |data| >= HeaderSize
      && LeU32(data, 0) == a.fileCount && LeU32(data, 4) == a.fileDataOffset
      && LeU32(data, 8) == a.fileNamesOffset && LeU32(data, 12) == a.fileInfoOffset
  {
    var p := Prelude(a);
    var data := Encode(a);
    PreludeLayout(a);
    var q := NameBlock(Names(a.fileInfo));
    SliceOfPrefix(p, q, 0, 4);
    SliceOfPrefix(p, q, 4, 8);
    SliceOfPrefix(p, q, 8, 12);
    SliceOfPrefix(p, q, 12, 16);
    LeU32At(data, 0, a.fileCount);
    LeU32At(data, 4, a.fileDataOffset);
    LeU32At(data, 8, a.fileNamesOffset);
    LeU32At(data, 12, a.fileInfoOffset);
  }

  /** Record `i` of an encoded archive is where the reader looks for it. */
  lemma EncodeRecordAt(a: Archive, i: nat)
    requires Encodable(a) && i < |a.fileInfo|
    ensures var o := RecordAt(a.fileInfoOffset, i);
      && o + RecordSize <= |Prelude(a)|
      && Encode(a)[o..o + RecordSize] == EncodeRecord(NameOffset(a, i), a.fileInfo[i])
  {
    var p := Prelude(a);
    var rs := RecordImages(a);
    PreludeLayout(a);
    ConcatAt(rs, 16, i);
    var t := 16 * i;
    SliceOfSlice(p, a.fileInfoOffset, |p|, t, t + RecordSize);
    SliceOfPrefix(p, NameBlock(Names(a.fileInfo)), a.fileInfoOffset + t, a.fileInfoOffset + t + RecordSize);
  }

  /** The name of entry `i` of an encoded archive is the NUL-terminated string at the offset
      its record holds. */
  lemma EncodeNameAt(a: Archive, i: nat)
    requires Encodable(a) && i < |a.fileInfo|
    ensures var data := Encode(a);
      CString(data, NameOffset(a, i)) == Some(Latin1Bytes(a.fileInfo[i].fileName))
  {
    PreludeLength(a);
    NameBlockCString(Prelude(a), Names(a.fileInfo), i);
  }

  /** Entry `i` of an encoded archive decodes back to itself. */
  lemma EncodedRecord(a: Archive, i: nat)
    requires Encodable(a) && i < |a.fileInfo|
    ensures DecodeRecord(Encode(a), a.fileInfoOffset, i) == Success(a.fileInfo[i])
  {
    var data := Encode(a);
    var o := RecordAt(a.fileInfoOffset, i);
    EncodeRecordAt(a, i);
    DecodeEncodeRecord(NameOffset(a, i), a.fileInfo[i]);
    LeU32OfSlice(data, o, o + RecordSize, 0);
    LeU32OfSlice(data, o, o + RecordSize, 4);
    LeU32OfSlice(data, o, o + RecordSize, 8);
    LeU32OfSlice(data, o, o + RecordSize, 12);
    EncodeNameAt(a, i);
    Latin1OfLatin1Bytes(a.fileInfo[i].fileName);
  }

  /** Parsing an encoded archive recovers it exactly: header words, entry count, and every
      entry's sizes, offset, compression flag and name, in order. */
  lemma ParseEncode(a: Archive, path: string)
    requires Encodable(a) && a.darFileName == BaseName(path)
    ensures Parse(path, Encode(a)) == Success(a)
  {
    var data := Encode(a);
    EncodeHeader(a);
    var rs := Records(data, a.fileInfoOffset, a.fileCount);
    forall j | 0 <= j < |rs|
      ensures rs[j] == Success(a.fileInfo[j])
    {
      EncodedRecord(a, j);
    }
    CollectSuccesses(rs, a.fileInfo);
  }

  /** Python's `xs[index]` on a list of `n` items: a negative index counts from the end. */
  function ResolveIndex(n: nat, index: int): (r: Option<nat>)
    ensures r.Some? <==> 0 <= index + n && index < n
    ensures r.Some? ==> r.value < n && (r.value - index == 0 || r.value - index == n)
  {
    if 0 <= index < n then Some(index)
    else if 0 <= index + n && index < 0 then Some(n + index)
    else None
  }

  /** Each item has exactly two names, its position and its position counted from the end. */
  lemma ResolveIndexAliases(n: nat, i: nat, index: int)
    requires i < n
    ensures ResolveIndex(n, index) == Some(i) <==> index == i || index == i - n
  {
  }

  /** What `extractFile` writes: the file at `path`, holding `raw` when `inflate` is false and
      otherwise whatever `zlib.decompress(raw)` gives (`raw` itself when that fails). */
  datatype Write = Write(path: string, raw: seq<uint8>, inflate: bool)

  /** The size `info` reports as stored in the archive, chosen by the compression flag. Once
      the flag agrees with the compressed size, as on every decoded record, it is the
      compressed size when that is not zero and the full size otherwise. */
  function StoredSize(e: Entry): (size: uint32)
    ensures (e.compressed <==> e.compressedSize != 0) ==>
      size == if e.compressedSize != 0 then e.compressedSize else e.fileSize
  {
    if e.compressed then e.compressedSize else e.fileSize
  }

  /** On every entry of a parsed archive the stored size is the compressed size when that is
      not zero, and the full size otherwise. */
  lemma StoredSizeOfParsed(path: string, data: seq<uint8>, i: nat)
    requires Parse(path, data).Success? && i < |Parse(path, data).value.fileInfo|
    ensures var e := Parse(path, data).value.fileInfo[i];
      StoredSize(e) == if e.compressedSize != 0 then e.compressedSize else e.fileSize
  {
    ParseValid(path, data);
  }

  /** Where an entry is written: `os.path.join(directory, "%08X_%s" % (fileOffset, name))`. */
  function OutputPath(directory: string, e: Entry): (path: string)
  {
    PathJoin(directory, OffsetName(e.fileOffset, e.fileName))
  }

  /** `extractFile(fileindex, initialindex, directory)`: entry `fileindex - initialindex`
      (Python indexing) is written under `directory` with its offset-prefixed name, and its
      bytes are the compressed stream when it is compressed and the plain file otherwise.
      Indexing raises first; `open` then refuses a path holding NUL. */
  function ExtractFile(data: seq<uint8>, a: Archive, fileindex: int, initialindex: int, directory: string): (r: Result<Write, Error>)
    ensures ResolveIndex(|a.fileInfo|, fileindex - initialindex).None? ==> r == Failure(IndexOutOfRange)
    ensures ResolveIndex(|a.fileInfo|, fileindex - initialindex).Some? ==>
      var e := a.fileInfo[ResolveIndex(|a.fileInfo|, fileindex - initialindex).value];
      && (r.Success? <==> NulFree(OutputPath(directory, e)))
      && (r.Failure? ==> r.error == NulInPath(OutputPath(directory, e)))
      && (r.Success? ==>
           && r.value.path == OutputPath(directory, e)
           && r.value.inflate == e.compressed
           && r.value.raw == ReadAt(data, e.fileOffset, StoredSize(e)))
  {
    match ResolveIndex(|a.fileInfo|, fileindex - initialindex)
    case None => Failure(IndexOutOfRange)
    case Some(fi) =>
      var e := a.fileInfo[fi];
      var path := OutputPath(directory, e);
      if !NulFree(path) then Failure(NulInPath(path))
      else
        var raw := if e.compressed then ReadAt(data, e.fileOffset, e.compressedSize)
                   else ReadAt(data, e.fileOffset, e.fileSize);
        Success(Write(path, raw, e.compressed))
  }

  /** The bytes extracted for an entry are the stored size's worth at its offset, when the
      archive holds them, and never more. */
  lemma ExtractReadsStoredSize(data: seq<uint8>, a: Archive, index: nat, directory: string)
    requires index < |a.fileInfo|
    ensures var e := a.fileInfo[index];
      var r := ExtractFile(data, a, index, 0, directory);
      r.Success? ==>
        && |r.value.raw| <= StoredSize(e)
        && (e.fileOffset + StoredSize(e) <= |data| ==> r.value.raw == data[e.fileOffset..e.fileOffset + StoredSize(e)])
  {
  }

  /** What `extractFiles` does: the directory it tries to create, the files it writes in
      order, and the error that stopped it, if any. */
  datatype Extraction = Extraction(directory: string, writes: seq<Write>, failure: Option<Error>)

  /** Every `extractFile(i, 0, dir)` call of the loop, for `i` in `xrange(fileCount)`. */
  function Attempts(data: seq<uint8>, a: Archive, dir: string): (rs: seq<Result<Write, Error>>)
    ensures |rs| == a.fileCount && forall i :: 0 <= i < a.fileCount ==> rs[i] == ExtractFile(data, a, i, 0, dir)
  {
    seq(a.fileCount, i requires 0 <= i < a.fileCount => ExtractFile(data, a, i, 0, dir))
  }

  /** `extractFiles(directory)`: the directory is `directory`, or the archive's own name
      when none (or an empty one) is given. `os.mkdir` on a directory holding NUL raises a
      `TypeError`, which the `except OSError` around it does not catch, so nothing is
      extracted. Otherwise every index below `fileCount` is extracted in order, until the
      first call that raises. */
  function ExtractFiles(data: seq<uint8>, a: Archive, directory: Option<string>): (x: Extraction)
    ensures x.directory == if directory.None? || directory.value == "" then a.darFileName else directory.value
    ensures !NulFree(x.directory) ==> x.writes == [] && x.failure == Some(NulInPath(x.directory))
    ensures |x.writes| <= a.fileCount
    ensures forall i :: 0 <= i < |x.writes| ==> ExtractFile(data, a, i, 0, x.directory) == Success(x.writes[i])
    ensures x.failure.None? <==>
      NulFree(x.directory) && forall i :: 0 <= i < a.fileCount ==> ExtractFile(data, a, i, 0, x.directory).Success?
    ensures x.failure.None? ==> |x.writes| == a.fileCount
    ensures NulFree(x.directory) && x.failure.Some? ==>
      && |x.writes| < a.fileCount
      && ExtractFile(data, a, |x.writes|, 0, x.directory) == Failure(x.failure.value)
  {
    var dir := if directory.None? || directory.value == "" then a.darFileName else directory.value;
    if !NulFree(dir) then Extraction(dir, [], Some(NulInPath(dir)))
    else
      var (writes, failure) := UntilFailure(Attempts(data, a, dir));
      Extraction(dir, writes, failure)
  }

  /** An output directory holding NUL stops `extractFiles` at `os.mkdir`, even for an
      archive without entries. */
  lemma NulDirectoryStopsExtraction()
    ensures var x := ExtractFiles([], Archive("d", 0, 0, 0, HeaderSize, []), Some("a\0b"));
      x.writes == [] && x.failure == Some(NulInPath("a\0b"))
  {
    assert "a\0b"[1] == '\0';
  }

  /** Every member of a parsed archive is written when the output directory holds no NUL:
      parsed names never do. */
  lemma ParsedExtractsAll(path: string, data: seq<uint8>, directory: Option<string>)
    requires Parse(path, data).Success?
    requires var a := Parse(path, data).value;
      NulFree(if directory.None? || directory.value == "" then a.darFileName else directory.value)
    ensures var a := Parse(path, data).value;
      var x := ExtractFiles(data, a, directory);
      x.failure.None? && |x.writes| == a.fileCount
  {
    var a := Parse(path, data).value;
    ParseValid(path, data);
    var dir := if directory.None? || directory.value == "" then a.darFileName else directory.value;
    forall i | 0 <= i < a.fileCount
      ensures ExtractFile(data, a, i, 0, dir).Success?
    {
      var e := a.fileInfo[i];
      assert StorableName(e.fileName);
      OffsetNameNulFree(e.fileOffset, e.fileName);
      PathJoinNulFree(dir, OffsetName(e.fileOffset, e.fileName));
    }
  }

  /** The name loop of `__init__` (dar.py:36-39) as written, for at most `fuel` iterations,
      from file position `pos`: it stops only on reading a NUL. At end of file `read(1)`
      returns the empty string, which is not NUL, and the position stays put, so the loop
      goes on. The result is the position of the NUL that ended it, or `None` when the
      loop is still running after `fuel` iterations. */
  function NameLoopAsWritten(data: seq<uint8>, pos: nat, fuel: nat): (stop: Option<nat>)
    decreases fuel
  {
    if fuel == 0 then None
    else if pos < |data| && data[pos] == 0 then Some(pos)
    else NameLoopAsWritten(data, if pos < |data| then pos + 1 else pos, fuel - 1)
  }

  /** Without a NUL after `pos` the loop as written never ends: no number of iterations
      brings it to a stop. */
  lemma {:induction false} NameLoopNeverEnds(data: seq<uint8>, pos: nat, fuel: nat)
    requires forall k :: pos <= k < |data| ==> data[k] != 0
    ensures NameLoopAsWritten(data, pos, fuel) == None
    decreases fuel
  {
    if fuel > 0 {
      NameLoopNeverEnds(data, if pos < |data| then pos + 1 else pos, fuel - 1);
    }
  }

  /** With a NUL at `e` and none before it, the loop as written stops there once it has
      had enough iterations. */
  lemma {:induction false} NameLoopReachesNul(data: seq<uint8>, pos: nat, e: nat, fuel: nat)
    requires pos <= e < |data| && data[e] == 0
    requires forall k :: pos <= k < e ==> data[k] != 0
    requires fuel > e - pos
    ensures NameLoopAsWritten(data, pos, fuel) == Some(e)
    decreases e - pos
  {
    if pos < e {
      NameLoopReachesNul(data, pos + 1, e, fuel - 1);
    }
  }

  /** The loop as written and the model's decode agree where a NUL follows the name offset:
      the loop stops just after the decoded name. Where none does, the decode reports
      `UnterminatedName` and the loop as written never stops. */
  lemma NameLoopAgreesWithDecode(data: seq<uint8>, infoOffset: nat, i: nat, fuel: nat)
    requires RecordAt(infoOffset, i) + RecordSize <= |data|
    ensures var nameOffset := LeU32(data, RecordAt(infoOffset, i));
      var r := DecodeRecord(data, infoOffset, i);
      && (r.Success? && fuel > |r.value.fileName| ==>
            NameLoopAsWritten(data, nameOffset, fuel) == Some(nameOffset + |r.value.fileName|))
      && (r == Failure(UnterminatedName(i)) ==> NameLoopAsWritten(data, nameOffset, fuel) == None)
  {
    var nameOffset := LeU32(data, RecordAt(infoOffset, i));
    var r := DecodeRecord(data, infoOffset, i);
    DecodeRecordSpec(data, infoOffset, i);
    if r.Success? {
      var n := |r.value.fileName|;
      var b := Latin1Bytes(r.value.fileName);
      assert forall k :: nameOffset <= k < nameOffset + n ==> data[k] == b[k - nameOffset];
      if fuel > n {
        NameLoopReachesNul(data, nameOffset, nameOffset + n, fuel);
      }
    } else if r == Failure(UnterminatedName(i)) {
      NameLoopNeverEnds(data, nameOffset, fuel);
    }
  }

  /** Two entries that differ in offset or in name never write the same file. */
  lemma OutputPathsDistinct(directory: string, a: Archive, i: nat, j: nat)
    requires i < |a.fileInfo| && j < |a.fileInfo|
    requires a.fileInfo[i].fileOffset != a.fileInfo[j].fileOffset || a.fileInfo[i].fileName != a.fileInfo[j].fileName
    ensures OutputPath(directory, a.fileInfo[i]) != OutputPath(directory, a.fileInfo[j])
  {
    var ei, ej := a.fileInfo[i], a.fileInfo[j];
    var fi, fj := OffsetName(ei.fileOffset, ei.fileName), OffsetName(ej.fileOffset, ej.fileName);
    OffsetNameInjective(ei.fileOffset, ei.fileName, ej.fileOffset, ej.fileName);
    assert IsHexDigit(fi[..8][0]) && IsHexDigit(fj[..8][0]);
    PathJoinInjective(directory, fi, fj);
  }

  /** The padding `info` puts before the "Filename" heading, from the longest name length:
      never below 8, and with the 8 columns after it exactly wide enough for a name of that
      length once names exceed 16 characters. */
  function ColumnPad(longest: nat): (l: int)
    ensures l >= 8 && l + 8 >= longest
    ensures longest >= 16 ==> l + 8 == longest
    ensures longest <= 16 ==> l == 8
  {
    var l := longest - 8;
    if l < 8 then 8 else l
  }

  /** One pass of the name loop in `__init__` as written: `longestFileName` is reset to 0,
      `l` counts the name's bytes, and `longestFileName` is raised to `l` when `l` is larger.
      The value before the pass (`None` when the attribute was never set) plays no part. */
  function LongestStep(longest: Option<nat>, name: string): (next: Option<nat>)
  {
    var reset: nat := 0;
    var l: nat := |name|;
    Some(if l > reset then l else reset)
  }

  /** `longestFileName` after the passes over `es`, starting from `longest`. */
  function LongestFrom(longest: Option<nat>, es: seq<Entry>): (last: Option<nat>)
    decreases |es|
  {
    if es == [] then longest else LongestFrom(LongestStep(longest, es[0].fileName), es[1..])
  }

  /** `longestFileName` once `__init__` has read every name; `None` when it was never set. */
  function LongestAsWritten(es: seq<Entry>): (longest: Option<nat>)
  {
    LongestFrom(None, es)
  }

  /** After any passes, what is left is the last name's length; with no passes, whatever was
      there before. */
  lemma {:induction false} LongestFromIsLast(longest: Option<nat>, es: seq<Entry>)
    ensures LongestFrom(longest, es) == if es == [] then longest else Some(|es[|es| - 1].fileName|)
    decreases |es|
  {
    if es != [] {
      LongestFromIsLast(LongestStep(longest, es[0].fileName), es[1..]);
      if |es| > 1 {
        assert es[1..][|es[1..]| - 1] == es[|es| - 1];
      }
    }
  }

  /** As written, `longestFileName` is never set for an archive without entries and is the
      last name's length otherwise, not the longest one. */
  lemma LongestAsWrittenIsLast(es: seq<Entry>)
    ensures LongestAsWritten(es).None? <==> es == []
    ensures es != [] ==> LongestAsWritten(es) == Some(|es[|es| - 1].fileName|)
  {
    LongestFromIsLast(None, es);
  }

  /** With the running maximum reset per name, a long name followed by a short one gets a
      column narrower than itself. */
  lemma LongestAsWrittenTooNarrow()
    ensures var es := [Entry(0, 0, 0, false, "twenty-character-nam"), Entry(0, 0, 16, false, "b")];
      && LongestAsWritten(es) == Some(1)
      && ColumnPad(LongestAsWritten(es).value) + 8 < |es[0].fileName|
  {
    var es := [Entry(0, 0, 0, false, "twenty-character-nam"), Entry(0, 0, 16, false, "b")];
    LongestAsWrittenIsLast(es);
  }

  /** The longest name length over all entries, 0 when there are none. */
  function LongestName(es: seq<Entry>): (m: nat)
    ensures forall i :: 0 <= i < |es| ==> |es[i].fileName| <= m
    ensures es != [] ==> exists i :: 0 <= i < |es| && |es[i].fileName| == m
    ensures es == [] ==> m == 0
  {
    if es == [] then 0
    else
      var rest := LongestName(es[1..]);
      assert forall i :: 1 <= i < |es| ==> |es[i].fileName| == |es[1..][i - 1].fileName|;
      if |es[0].fileName| >= rest then |es[0].fileName| else rest
  }

  /** With the true maximum, every name fits the column `info` lays out for names, and the
      column is no wider than 16 or the longest name. */
  lemma NamesFitColumn(es: seq<Entry>)
    ensures var width := ColumnPad(LongestName(es)) + 8;
      && (forall i :: 0 <= i < |es| ==> |es[i].fileName| <= width)
      && (width == 16 || exists i :: 0 <= i < |es| && |es[i].fileName| == width)
  {
  }
}

=== FILE: gmp.dfy ===
/** The GMP archive directory (gmp.py, and the identical parser of arch/gmp.py).

    Layout, all fields little-endian u32:
      header at 0:                 fileCount, descriptorOffset, unknown0, unknown1   (16 bytes)
      descriptor i at descriptorOffset + 32*i:
                                   name (20 bytes, NUL padded), rl, offset, unknown  (32 bytes)
    The payload of entry i is the `rl` bytes at `offset`.
 */
module Gmp {
  import opened Outcomes
  import opened Bytes
  import opened Text

  const HeaderSize: nat := 16
  const DescriptorSize: nat := 32
  const NameFieldSize: nat := 20

  datatype Descriptor = Descriptor(name: string, rl: uint32, offset: uint32, unknown: uint32)

  datatype Archive = Archive(
    fileCount: uint32,
    descriptorOffset: uint32,
    unknown0: uint32,
    unknown1: uint32,
    fileDescriptors: seq<Descriptor>)

  /** `Truncated`: a `struct.unpack` met a short read. `NonAsciiPath`: Python 2's
      `str.encode()` refused an output path holding a byte above 0x7F. `NulInPath`: `open`
      refused an output path holding a NUL byte (a name field with an interior NUL). */
  datatype Error = Truncated | NonAsciiPath(path: string) | NulInPath(path: string)

  /** The name given to an entry whose name field is all NUL: "f" and the decimal index. */
  function DefaultName(i: nat): (name: string)
    ensures |name| >= 2 && name[0] == 'f' && name[1..] == DecimalString(i)
  {
    "f" + DecimalString(i)
  }

  /** Different entries never share a default name. */
  lemma DefaultNamesDistinct(i: nat, j: nat)
    requires DefaultName(i) == DefaultName(j)
    ensures i == j
  {
    assert DecimalString(i) == DefaultName(i)[1..] == DefaultName(j)[1..] == DecimalString(j);
    DecimalRoundTrip(i);
    DecimalRoundTrip(j);
  }

  /** The name of entry `i` from its 20-byte field: NULs stripped at both ends, and the
      default name when nothing is left. */
  function DecodeName(field: seq<uint8>, i: nat): (name: string)
    ensures name != []
    ensures (forall k :: 0 <= k < |field| ==> field[k] == 0) ==> name == DefaultName(i)
    ensures (exists k :: 0 <= k < |field| && field[k] != 0) ==> name == Latin1(StripNul(field))
  {
    var stripped := StripNul(field);
    StripNulSpec(field);
    if stripped == [] then DefaultName(i) else Latin1(stripped)
  }

  /** Descriptor `i`, decoded from its own 32 bytes and nothing else. */
  function DecodeDescriptor(rec: seq<uint8>, i: nat): (d: Descriptor)
    requires |rec| == DescriptorSize
  {
    Descriptor(DecodeName(rec[..NameFieldSize], i), LeU32(rec, 20), LeU32(rec, 24), LeU32(rec, 28))
  }

  /** Descriptor `i` of a table that starts at `off`. */
  function DescriptorAt(data: seq<uint8>, off: nat, i: nat): (d: Descriptor)
    requires off + 32 * i + DescriptorSize <= |data|
  {
    var o := off + 32 * i;
    DecodeDescriptor(data[o..o + DescriptorSize], i)
  }

  /** `GMP_File.__init__`: the header, then `fileCount` descriptors in index order. Every read
      is a full `struct.unpack`, so the archive must hold the header and every descriptor. */
  function Parse(data: seq<uint8>): (r: Result<Archive, Error>)
    ensures r.Success? <==>
      HeaderSize <= |data| && (LeU32(data, 0) == 0 || LeU32(data, 4) + 32 * LeU32(data, 0) <= |data|)
    ensures r.Failure? ==> r.error == Truncated
    ensures r.Success? ==>
      && r.value.fileCount == LeU32(data, 0)
      && r.value.descriptorOffset == LeU32(data, 4)
      && r.value.unknown0 == LeU32(data, 8)
      && r.value.unknown1 == LeU32(data, 12)
      && |r.value.fileDescriptors| == r.value.fileCount
    ensures r.Success? ==> forall i :: 0 <= i < |r.value.fileDescriptors| ==>
      && r.value.descriptorOffset + 32 * i + DescriptorSize <= |data|
      && r.value.fileDescriptors[i] == DescriptorAt(data, r.value.descriptorOffset, i)
  {
    if |data| < HeaderSize then Failure(Truncated)
    else
      var count := LeU32(data, 0);
      var off := LeU32(data, 4);
      if count > 0 && off + 32 * count > |data| then Failure(Truncated)
      else
        var descs := seq(count, i requires 0 <= i < count => DescriptorAt(data, off, i));
        Success(Archive(count, off, LeU32(data, 8), LeU32(data, 12), descs))
  }

  /** What a parsed descriptor list always satisfies: names are non-empty, at most 20
      characters, byte-valued, and neither start nor end with NUL. */
  predicate StorableName(name: string)
  {
    && 1 <= |name| <= NameFieldSize
    && IsLatin1(name)
    && name[0] != '\0' && name[|name| - 1] != '\0'
  }

  predicate ValidArchive(a: Archive)
  {
    && a.fileCount == |a.fileDescriptors|
    && forall i :: 0 <= i < |a.fileDescriptors| ==> StorableName(a.fileDescriptors[i].name)
  }

  /** A decoded name is always storable: a stripped field keeps at most 20 non-NUL-ended
      bytes, and a default name for a 32-bit index has at most 11 characters. */
  lemma DecodeNameStorable(field: seq<uint8>, i: nat)
    requires |field| == NameFieldSize && i < 0x1_0000_0000
    ensures StorableName(DecodeName(field, i))
  {
    var stripped := StripNul(field);
    StripNulSpec(field);
    if stripped == [] {
      assert Pow10(10) == 10_000_000_000;
      DecimalStringLength(i, 10);
    }
  }

  /** Every parsed archive has one descriptor per counted file and a storable name on each. */
  lemma ParseValid(data: seq<uint8>)
    requires Parse(data).Success?
    ensures ValidArchive(Parse(data).value)
  {
    var a := Parse(data).value;
    forall i | 0 <= i < |a.fileDescriptors|
      ensures StorableName(a.fileDescriptors[i].name)
    {
      var o := a.descriptorOffset + 32 * i;
      var rec := data[o..o + DescriptorSize];
      assert a.fileDescriptors[i] == DecodeDescriptor(rec, i);
      DecodeNameStorable(rec[..NameFieldSize], i);
    }
  }

  /** The bytes of a name as its field stores them, NUL padded to 20. */
  function EncodeName(name: string): (field: seq<uint8>)
    requires StorableName(name)
    ensures |field| == NameFieldSize
  {
    Latin1Bytes(name) + Zeros(NameFieldSize - |name|)
  }

  function EncodeDescriptor(d: Descriptor): (rec: seq<uint8>)
    requires StorableName(d.name)
    ensures |rec| == DescriptorSize
  {
    EncodeName(d.name) + LeBytes(d.rl) + LeBytes(d.offset) + LeBytes(d.unknown)
  }

  /** The encodings of `ds`, one 32-byte record each. */
  function DescriptorRecords(ds: seq<Descriptor>): (rs: seq<seq<uint8>>)
    requires forall i :: 0 <= i < |ds| ==> StorableName(ds[i].name)
    ensures |rs| == |ds| && forall i :: 0 <= i < |ds| ==> rs[i] == EncodeDescriptor(ds[i])
  {
    seq(|ds|, i requires 0 <= i < |ds| => EncodeDescriptor(ds[i]))
  }

  /** A GMP image of `a`: the header, NUL padding up to `descriptorOffset`, the descriptors. */
  function Encode(a: Archive): (data: seq<uint8>)
    requires ValidArchive(a) && a.descriptorOffset >= HeaderSize
  {
    LeBytes(a.fileCount) + LeBytes(a.descriptorOffset) + LeBytes(a.unknown0) + LeBytes(a.unknown1)
    + Zeros(a.descriptorOffset - HeaderSize) + Concat(DescriptorRecords(a.fileDescriptors))
  }

  /** A stored name reads back as itself. */
  lemma DecodeEncodeName(name: string, i: nat)
    requires StorableName(name)
    ensures DecodeName(EncodeName(name), i) == name
  {
    var bytes := Latin1Bytes(name);
    StripNulPadded(bytes, NameFieldSize - |name|);
    Latin1OfLatin1Bytes(name);
    assert EncodeName(name)[0] != 0;
  }

  lemma DecodeEncodeDescriptor(d: Descriptor, i: nat)
    requires StorableName(d.name)
    ensures DecodeDescriptor(EncodeDescriptor(d), i) == d
  {
    var rec := EncodeDescriptor(d);
    assert rec[..NameFieldSize] == EncodeName(d.name);
    assert rec[20..24] == LeBytes(d.rl);
    assert rec[24..28] == LeBytes(d.offset);
    assert rec[28..32] == LeBytes(d.unknown);
    DecodeEncodeName(d.name, i);
    LeU32At(rec, 20, d.rl);
    LeU32At(rec, 24, d.offset);
    LeU32At(rec, 28, d.unknown);
  }

  /** The header words of an encoded archive read back as the archive's own. */
  lemma EncodeHeader(a: Archive)
    requires ValidArchive(a) && a.descriptorOffset >= HeaderSize
    ensures |Encode(a)| >= HeaderSize
    ensures LeU32(Encode(a), 0) == a.fileCount && LeU32(Encode(a), 4) == a.descriptorOffset
    ensures LeU32(Encode(a), 8) == a.unknown0 && LeU32(Encode(a), 12) == a.unknown1
  {
    var data := Encode(a);
    var header := LeBytes(a.fileCount) + LeBytes(a.descriptorOffset) + LeBytes(a.unknown0) + LeBytes(a.unknown1);
    assert data[..HeaderSize] == header;
    assert data[0..4] == header[0..4] == LeBytes(a.fileCount);
    assert data[4..8] == header[4..8] == LeBytes(a.descriptorOffset);
    assert data[8..12] == header[8..12] == LeBytes(a.unknown0);
    assert data[12..16] == header[12..16] == LeBytes(a.unknown1);
    LeU32At(data, 0, a.fileCount);
    LeU32At(data, 4, a.descriptorOffset);
    LeU32At(data, 8, a.unknown0);
    LeU32At(data, 12, a.unknown1);
  }

  /** Descriptor `i` of an encoded archive sits at `descriptorOffset + 32*i`. */
  lemma EncodeDescriptorAt(a: Archive, i: nat)
    requires ValidArchive(a) && a.descriptorOffset >= HeaderSize
    requires i < |a.fileDescriptors|
    ensures a.descriptorOffset + 32 * i + DescriptorSize <= |Encode(a)|
    ensures var o := a.descriptorOffset + 32 * i;
      Encode(a)[o..o + DescriptorSize] == EncodeDescriptor(a.fileDescriptors[i])
  {
    var data := Encode(a);
    var prefix := LeBytes(a.fileCount) + LeBytes(a.descriptorOffset) + LeBytes(a.unknown0) + LeBytes(a.unknown1)
      + Zeros(a.descriptorOffset - HeaderSize);
    var rs := DescriptorRecords(a.fileDescriptors);
    var body := Concat(rs);
    assert data == prefix + body;
    assert |prefix| == a.descriptorOffset;
    ConcatAt(rs, 32, i);
    var j := 32 * i;
    assert (prefix + body)[|prefix| + j..|prefix| + j + DescriptorSize] == body[j..j + DescriptorSize];
  }

  /** Descriptor `i` of an encoded archive decodes back to itself. */
  lemma EncodedDescriptor(a: Archive, i: nat)
    requires ValidArchive(a) && a.descriptorOffset >= HeaderSize
    requires i < |a.fileDescriptors|
    ensures a.descriptorOffset + 32 * i + DescriptorSize <= |Encode(a)|
    ensures DescriptorAt(Encode(a), a.descriptorOffset, i) == a.fileDescriptors[i]
  {
    EncodeDescriptorAt(a, i);
    DescriptorAtOf(Encode(a), a.descriptorOffset, i, a.fileDescriptors[i]);
  }

  /** A descriptor reads back from any image holding its encoding where the parser looks. */
  lemma DescriptorAtOf(data: seq<uint8>, off: nat, i: nat, d: Descriptor)
    requires StorableName(d.name)
    requires off + 32 * i + DescriptorSize <= |data|
    requires var o := off + 32 * i; data[o..o + DescriptorSize] == EncodeDescriptor(d)
    ensures DescriptorAt(data, off, i) == d
  {
    DecodeEncodeDescriptor(d, i);
  }

  /** An encoded archive passes the parser's bounds check. */
  lemma EncodeFits(a: Archive)
    requires ValidArchive(a) && a.descriptorOffset >= HeaderSize
    ensures Parse(Encode(a)).Success?
    ensures LeU32(Encode(a), 0) == a.fileCount && LeU32(Encode(a), 4) == a.descriptorOffset
    ensures LeU32(Encode(a), 8) == a.unknown0 && LeU32(Encode(a), 12) == a.unknown1
  {
    EncodeHeader(a);
    if a.fileCount > 0 {
      EncodeDescriptorAt(a, a.fileCount - 1);
    }
  }

  /** Parsing an encoded archive recovers it exactly: header fields, descriptor count, and
      every descriptor's name, size, offset and unknown word. */
  lemma ParseEncode(a: Archive)
    requires ValidArchive(a) && a.descriptorOffset >= HeaderSize
    ensures Parse(Encode(a)) == Success(a)
  {
    EncodeFits(a);
    var ds := Parse(Encode(a)).value.fileDescriptors;
    forall i | 0 <= i < |ds|
      ensures ds[i] == a.fileDescriptors[i]
    {
      EncodedDescriptor(a, i);
    }
    assert ds == a.fileDescriptors;
  }

  /** The bytes `extractFiles` writes for a descriptor: `rl` bytes read at `offset`
      (fewer when the archive ends first). */
  function Payload(data: seq<uint8>, d: Descriptor): (p: seq<uint8>)
    ensures d.offset + d.rl <= |data| ==> p == data[d.offset..d.offset + d.rl] && |p| == d.rl
    ensures |p| <= d.rl
  {
    ReadAt(data, d.offset, d.rl)
  }

  /** gmp.py writes every entry under "<archive name>_files/". */
  function OutputDirectory(gmpFileName: string): (dir: string)
  {
    gmpFileName + "_files"
  }

  function OutputPath(gmpFileName: string, d: Descriptor): (path: string)
    ensures path == OutputDirectory(gmpFileName) + "/" + d.name
  {
    gmpFileName + "_files/" + d.name
  }

  datatype Write = Write(path: string, contents: seq<uint8>)

  /** What extraction does: the directory it tries to create, the files it writes in order,
      and the error that stopped it, if any. */
  datatype Extraction = Extraction(directory: string, writes: seq<Write>, failure: Option<Error>)

  /** One pass of the extraction loop: `str.encode()` refuses a non-ASCII path first, then
      `open` refuses one holding NUL; otherwise the entry's payload is written to its path. */
  function ExtractEntry(data: seq<uint8>, gmpFileName: string, d: Descriptor): (r: Result<Write, Error>)
    ensures var path := OutputPath(gmpFileName, d);
      && (r.Success? <==> IsAscii(path) && NulFree(path))
      && (r.Success? ==> r.value == Write(path, Payload(data, d)))
      && (!IsAscii(path) ==> r == Failure(NonAsciiPath(path)))
      && (IsAscii(path) && !NulFree(path) ==> r == Failure(NulInPath(path)))
  {
    var path := OutputPath(gmpFileName, d);
    if !IsAscii(path) then Failure(NonAsciiPath(path))
    else if !NulFree(path) then Failure(NulInPath(path))
    else Success(Write(path, Payload(data, d)))
  }

  /** Every pass of the loop, in index order. */
  function Attempts(data: seq<uint8>, ds: seq<Descriptor>, gmpFileName: string): (rs: seq<Result<Write, Error>>)
    ensures |rs| == |ds| && forall k :: 0 <= k < |ds| ==> rs[k] == ExtractEntry(data, gmpFileName, ds[k])
  {
    seq(|ds|, k requires 0 <= k < |ds| => ExtractEntry(data, gmpFileName, ds[k]))
  }

  /** `GMP_File.extractFiles` of gmp.py: create "<name>_files" (an existing one is fine),
      then write each entry's payload to "<name>_files/<entry name>" in index order, until
      the first path that cannot be encoded or opened. */
  function ExtractFiles(data: seq<uint8>, a: Archive, gmpFileName: string): (x: Extraction)
    requires ValidArchive(a)
    ensures x.directory == OutputDirectory(gmpFileName)
    ensures |x.writes| <= a.fileCount
    ensures x.failure.None? ==> |x.writes| == a.fileCount
    ensures forall k :: 0 <= k < |x.writes| ==>
      && x.writes[k].path == OutputPath(gmpFileName, a.fileDescriptors[k])
      && x.writes[k].contents == Payload(data, a.fileDescriptors[k])
    ensures x.failure.None? <==> forall k :: 0 <= k < |a.fileDescriptors| ==>
      var path := OutputPath(gmpFileName, a.fileDescriptors[k]);
      IsAscii(path) && NulFree(path)
    ensures x.failure.Some? ==>
      && |x.writes| < a.fileCount
      && ExtractEntry(data, gmpFileName, a.fileDescriptors[|x.writes|]) == Failure(x.failure.value)
  {
    var (writes, failure) := UntilFailure(Attempts(data, a.fileDescriptors, gmpFileName));
    Extraction(OutputDirectory(gmpFileName), writes, failure)
  }

  /** A name field `61 00 62` followed by NULs decodes to "a\0b": the strip keeps the
      interior NUL. */
  lemma NulFieldDecodes()
    ensures DecodeName([0x61, 0, 0x62] + Zeros(17), 0) == "a\0b"
  {
    var field: seq<uint8> := [0x61, 0, 0x62] + Zeros(17);
    StripNulUnique(field, 0, 3);
    assert field[0..3] == [0x61, 0, 0x62];
    assert field[0] != 0;
  }

  /** That name's path is ASCII, yet extraction stops at it, before writing anything. */
  lemma NulNameStopsExtraction()
    ensures var d := Descriptor("a\0b", 0, 0, 0);
      var x := ExtractFiles([], Archive(1, HeaderSize, 0, 0, [d]), "g");
      && DecodeName([0x61, 0, 0x62] + Zeros(17), 0) == d.name
      && IsAscii(OutputPath("g", d))
      && x.writes == []
      && x.failure == Some(NulInPath("g_files/a\0b"))
  {
    NulFieldDecodes();
    var d := Descriptor("a\0b", 0, 0, 0);
    var path := OutputPath("g", d);
    assert path == "g_files/a\0b";
    assert path[9] == '\0';
    var x := ExtractFiles([], Archive(1, HeaderSize, 0, 0, [d]), "g");
    assert x.failure.Some?;
    assert ExtractEntry([], "g", d) == Failure(NulInPath(path));
  }

  /** On a parsed archive whose payloads lie inside it, each written file holds exactly the
      `rl` bytes found at the entry's `offset`. */
  lemma ExtractWritesPayloads(data: seq<uint8>, gmpFileName: string)
    requires Parse(data).Success?
    requires forall i :: 0 <= i < |Parse(data).value.fileDescriptors| ==>
      Parse(data).value.fileDescriptors[i].offset + Parse(data).value.fileDescriptors[i].rl <= |data|
    ensures var a := Parse(data).value;
      ValidArchive(a) &&
      var x := ExtractFiles(data, a, gmpFileName);
      forall k :: 0 <= k < |x.writes| ==>
        var d := a.fileDescriptors[k];
        |x.writes[k].contents| == d.rl && x.writes[k].contents == data[d.offset..d.offset + d.rl]
  {
    ParseValid(data);
  }
}

=== FILE: outcomes.dfy ===
/** Outcomes of the readers' steps. A `Result` carries either what a step produced or the
    error that the corresponding Python exception would have carried; an `Option` is a value
    that may be missing. Both support Dafny's `:-` early-return operator. */
module Outcomes {

  datatype Result<+T, +E> = Success(value: T) | Failure(error: E) {
    predicate IsFailure() {
      Failure?
    }

    function PropagateFailure<U>(): Result<U, E>
      requires Failure?
    {
      Failure(error)
    }

    function Extract(): T
      requires Success?
    {
      value
    }
  }

  datatype Option<+T> = None | Some(value: T) {
    predicate IsFailure() {
      None?
    }

    function PropagateFailure<U>(): Option<U>
      requires None?
    {
      None
    }

    function Extract(): T
      requires Some?
    {
      value
    }
  }

  /** The values of `rs` in order when every one succeeded, otherwise the first failure:
      what a loop that stops at the first exception produces. */
  function Collect<T, E>(rs: seq<Result<T, E>>): (r: Result<seq<T>, E>)
    ensures r.Success? <==> forall i :: 0 <= i < |rs| ==> rs[i].Success?
    ensures r.Success? ==> |r.value| == |rs| && forall i :: 0 <= i < |rs| ==> rs[i] == Success(r.value[i])
  {
    if rs == [] then Success([])
    else
      match rs[0]
      case Failure(e) => Failure(e)
      case Success(v) =>
        match Collect(rs[1..])
        case Failure(e) => Failure(e)
        case Success(vs) =>
          assert forall i :: 1 <= i < |rs| ==> rs[i] == rs[1..][i - 1];
          Success([v] + vs)
  }

  /** Results that all succeed collect to their values. */
  lemma CollectSuccesses<T, E>(rs: seq<Result<T, E>>, vs: seq<T>)
    requires |rs| == |vs| && forall i :: 0 <= i < |rs| ==> rs[i] == Success(vs[i])
    ensures Collect(rs) == Success(vs)
  {
    var r := Collect(rs);
    assert r.Success?;
    assert r.value == vs;
  }

  /** A failure of `Collect` is the error of the first failing result. */
  lemma {:induction false} CollectFirstFailure<T, E>(rs: seq<Result<T, E>>)
    requires Collect(rs).Failure?
    ensures exists j :: (0 <= j < |rs| && rs[j] == Failure(Collect(rs).error)
      && forall k :: 0 <= k < j ==> rs[k].Success?)
  {
    if rs[0].Success? {
      CollectFirstFailure(rs[1..]);
      var j :| 0 <= j < |rs[1..]| && rs[1..][j] == Failure(Collect(rs[1..]).error)
        && forall k :: 0 <= k < j ==> rs[1..][k].Success?;
      assert rs[j + 1] == rs[1..][j];
      forall k | 0 <= k < j + 1
        ensures rs[k].Success?
      {
        if k > 0 {
          assert rs[k] == rs[1..][k - 1];
        }
      }
    }
  }

  /** What a loop over `rs` that stops at its first exception leaves behind: the values of
      the steps that completed, in order, and the error that stopped it, if one did. */
  function UntilFailure<T, E>(rs: seq<Result<T, E>>): (r: (seq<T>, Option<E>))
    ensures |r.0| <= |rs|
    ensures forall k :: 0 <= k < |r.0| ==> rs[k] == Success(r.0[k])
    ensures r.1.None? <==> forall k :: 0 <= k < |rs| ==> rs[k].Success?
    ensures r.1.None? ==> |r.0| == |rs|
    ensures r.1.Some? ==> |r.0| < |rs| && rs[|r.0|] == Failure(r.1.value)
  {
    if rs == [] then ([], None)
    else
      match rs[0]
      case Failure(e) => ([], Some(e))
      case Success(v) =>
        var rest := UntilFailure(rs[1..]);
        assert forall k :: 1 <= k < |rs| ==> rs[k] == rs[1..][k - 1];
        ([v] + rest.0, rest.1)
  }

  /** `Collect` and `UntilFailure` agree: all values when nothing fails, otherwise the same
      first error. */
  lemma CollectUntilFailure<T, E>(rs: seq<Result<T, E>>)
    ensures var (vs, err) := UntilFailure(rs);
      Collect(rs) == if err.None? then Success(vs) else Failure(err.value)
  {
    var (vs, err) := UntilFailure(rs);
    if err.None? {
      CollectSuccesses(rs, vs);
    } else {
      CollectFirstFailure(rs);
      var j :| 0 <= j < |rs| && rs[j] == Failure(Collect(rs).error)
        && forall k :: 0 <= k < j ==> rs[k].Success?;
      assert j == |vs|;
    }
  }
}

=== FILE: text.dfy ===
/** Text produced by the readers: `"%08X"` offsets, `str(i)` default names, and the few
    `os.path` / `str.split` operations that build output names, on POSIX paths ('/').
 */
module Text {
  import opened Bytes

  /** An upper-case hex digit, the alphabet of `"%X"`. */
  predicate IsHexDigit(c: char)
  {
    '0' <= c <= '9' || 'A' <= c <= 'F'
  }

  /** The digit character for `d` in 0..15. */
  function HexChar(d: int): (c: char)
    requires 0 <= d < 16
    ensures IsHexDigit(c)
  {
    if d < 10 then ('0' as int + d) as char else ('A' as int + d - 10) as char
  }

  /** The value of a hex digit character. */
  function HexCharValue(c: char): (d: int)
    requires IsHexDigit(c)
    ensures 0 <= d < 16 && HexChar(d) == c
  {
    if c <= '9' then c as int - '0' as int else c as int - 'A' as int + 10
  }

  /** 16 to the power `k`. */
  function Pow16(k: nat): (p: nat)
    ensures p >= 1
  {
    if k == 0 then 1 else 16 * Pow16(k - 1)
  }

  /** The low `width` upper-case hex digits of `n`, most significant first. */
  function HexN(n: nat, width: nat): (s: string)
    ensures |s| == width
    ensures forall k :: 0 <= k < width ==> IsHexDigit(s[k])
  {
    if width == 0 then ""
    else HexN(n / 16, width - 1) + [HexChar(n % 16)]
  }

  /** Python's `"%08X" % n` for a 32-bit `n`: always exactly eight upper-case hex digits,
      because a 32-bit value has at most eight. */
  function Hex8Upper(n: uint32): (s: string)
    ensures |s| == 8
    ensures forall k :: 0 <= k < 8 ==> IsHexDigit(s[k])
  {
    HexN(n, 8)
  }

  /** The number an upper-case hex numeral denotes (`int(s, 16)`). */
  function HexValue(s: string): (n: nat)
    requires forall k :: 0 <= k < |s| ==> IsHexDigit(s[k])
  {
    if |s| == 0 then 0
    else 16 * HexValue(s[..|s| - 1]) + HexCharValue(s[|s| - 1])
  }

  /** `HexN` loses nothing when `n` fits in `width` digits. */
  lemma {:induction false} HexValueHexN(n: nat, width: nat)
    requires n < Pow16(width)
    ensures HexValue(HexN(n, width)) == n
  {
    if width > 0 {
      var s := HexN(n, width);
      assert n / 16 < Pow16(width - 1);
      HexValueHexN(n / 16, width - 1);
      assert s[..|s| - 1] == HexN(n / 16, width - 1);
      assert HexCharValue(HexChar(n % 16)) == n % 16;
    }
  }

  /** Reading the eight digits back as hex gives the offset they were written from, so
      distinct offsets get distinct output-name prefixes. */
  lemma Hex8UpperRoundTrip(n: uint32)
    ensures HexValue(Hex8Upper(n)) == n
  {
    assert Pow16(8) == 0x1_0000_0000;
    HexValueHexN(n, 8);
  }

  /** `"%08X_%s" % (offset, name)`, the output name of an archive member: the offset in
      eight hex digits, '_', the name. The offset can be read back from the first eight
      characters. */
  function OffsetName(offset: uint32, name: string): (fn: string)
    ensures |fn| == 9 + |name|
    ensures fn[..8] == Hex8Upper(offset) && HexValue(fn[..8]) == offset
    ensures fn[8] == '_' && fn[9..] == name
  {
    var hex := Hex8Upper(offset);
    Hex8UpperRoundTrip(offset);
    assert (hex + "_" + name)[..8] == hex;
    hex + "_" + name
  }

  /** Members at different offsets get different output names, whatever their names. */
  lemma OffsetNameInjective(o1: uint32, n1: string, o2: uint32, n2: string)
    requires o1 != o2 || n1 != n2
    ensures OffsetName(o1, n1) != OffsetName(o2, n2)
  {
    var f1, f2 := OffsetName(o1, n1), OffsetName(o2, n2);
    if o1 == o2 {
      assert f1[9..] != f2[9..];
    } else {
      assert f1[..8] != f2[..8];
    }
  }

  /** Python's `str(n)` for a non-negative integer: decimal digits without leading zeros. */
  function DecimalString(n: nat): (s: string)
    ensures |s| >= 1 && forall k :: 0 <= k < |s| ==> '0' <= s[k] <= '9'
    ensures |s| > 1 ==> s[0] != '0'
  {
    if n < 10 then [('0' as int + n) as char]
    else DecimalString(n / 10) + [('0' as int + n % 10) as char]
  }

  /** The number a decimal numeral denotes (`int(s)`). */
  function DecimalValue(s: string): (n: nat)
    requires forall k :: 0 <= k < |s| ==> '0' <= s[k] <= '9'
  {
    if |s| == 0 then 0
    else 10 * DecimalValue(s[..|s| - 1]) + (s[|s| - 1] as int - '0' as int)
  }

  /** 10 to the power `k`. */
  function Pow10(k: nat): (p: nat)
    ensures p >= 1
  {
    if k == 0 then 1 else 10 * Pow10(k - 1)
  }

  /** A number below 10^k has at most k decimal digits. */
  lemma {:induction false} DecimalStringLength(n: nat, k: nat)
    requires 1 <= k && n < Pow10(k)
    ensures |DecimalString(n)| <= k
  {
    if n >= 10 {
      assert k >= 2;
      assert n / 10 < Pow10(k - 1);
      DecimalStringLength(n / 10, k - 1);
    }
  }

  /** `int(str(n)) == n`: the decimal rendering loses nothing. */
  lemma {:induction false} DecimalRoundTrip(n: nat)
    ensures DecimalValue(DecimalString(n)) == n
  {
    var s := DecimalString(n);
    if n < 10 {
      assert s[..0] == "";
    } else {
      DecimalRoundTrip(n / 10);
      assert s[..|s| - 1] == DecimalString(n / 10);
    }
  }

  /** Python 2 `str.encode()` with the default ASCII codec succeeds only on 7-bit text. */
  predicate IsAscii(s: string)
  {
    forall k :: 0 <= k < |s| ==> s[k] as int < 0x80
  }

  /** POSIX `os.path.join(a, b)` for two components: an absolute `b` replaces `a`; otherwise
      `b` is appended after a single '/' unless `a` is empty or already ends in '/'. */
  function PathJoin(a: string, b: string): (p: string)
    ensures |b| > 0 && b[0] == '/' ==> p == b
    ensures |p| >= |b| && p[|p| - |b|..] == b
    ensures (|b| == 0 || b[0] != '/') ==> |p| >= |a| + |b| && p[..|a|] == a
    ensures (|b| == 0 || b[0] != '/') && (a == [] || a[|a| - 1] == '/') ==> p == a + b
    ensures (|b| == 0 || b[0] != '/') && a != [] && a[|a| - 1] != '/' ==> p == a + "/" + b
  {
    if |b| > 0 && b[0] == '/' then b
    else if a == [] || a[|a| - 1] == '/' then a + b
    else a + "/" + b
  }

  /** Joining different relative names onto one directory gives different paths. */
  lemma PathJoinInjective(a: string, b: string, c: string)
    requires |b| == 0 || b[0] != '/'
    requires |c| == 0 || c[0] != '/'
    requires b != c
    ensures PathJoin(a, b) != PathJoin(a, c)
  {
    var start := if a == [] || a[|a| - 1] == '/' then |a| else |a| + 1;
    assert PathJoin(a, b)[start..] == b;
    assert PathJoin(a, c)[start..] == c;
  }

  /** Python 2's `open` refuses a path holding a NUL character (a `TypeError`); every other
      path can at least be tried. */
  predicate NulFree(s: string)
  {
    forall k :: 0 <= k < |s| ==> s[k] != '\0'
  }

  /** A join of two NUL-free components is NUL-free. */
  lemma PathJoinNulFree(a: string, b: string)
    requires NulFree(a) && NulFree(b)
    ensures NulFree(PathJoin(a, b))
  {
    var p := PathJoin(a, b);
    if !(|b| > 0 && b[0] == '/') && !(a == [] || a[|a| - 1] == '/') {
      assert p == a + "/" + b;
    }
  }

  /** A NUL-free name keeps its output name NUL-free: the hex digits and '_' are not NUL. */
  lemma OffsetNameNulFree(offset: uint32, name: string)
    requires NulFree(name)
    ensures NulFree(OffsetName(offset, name))
  {
    var fn := OffsetName(offset, name);
    forall k | 0 <= k < |fn|
      ensures fn[k] != '\0'
    {
      if k < 8 {
        assert fn[k] == fn[..8][k];
      } else if k > 8 {
        assert fn[k] == fn[9..][k - 9];
      }
    }
  }

  /** The last '/'-separated component of `p` (Python's `p.split(os.sep)[-1]`). */
  function BaseName(p: string): (r: string)
    ensures |r| <= |p| && r == p[|p| - |r|..]
    ensures '/' !in r
    ensures |r| < |p| ==> p[|p| - |r| - 1] == '/'
  {
    if |p| == 0 || p[|p| - 1] == '/' then ""
    else BaseName(p[..|p| - 1]) + [p[|p| - 1]]
  }

  /** The base name is the only '/'-free suffix that is all of `p` or follows a '/'. */
  lemma BaseNameUnique(p: string, r: string)
    requires |r| <= |p| && r == p[|p| - |r|..]
    requires '/' !in r
    requires |r| < |p| ==> p[|p| - |r| - 1] == '/'
    ensures BaseName(p) == r
  {
  }

  /** A '/'-free name right after a '/' (or at the start) is the base name. */
  lemma BaseNameAfterSlash(a: string, b: string)
    requires a == [] || a[|a| - 1] == '/'
    requires '/' !in b
    ensures BaseName(a + b) == b
  {
    var p := a + b;
    assert p[|p| - |b|..] == b;
    if |b| < |p| {
      assert p[|p| - |b| - 1] == a[|a| - 1];
    }
    BaseNameUnique(p, b);
  }

  /** The part of `p` before its first '.' (Python's `p.split(".")[0]`). */
  function BeforeFirstDot(p: string): (r: string)
    ensures |r| <= |p| && r == p[..|r|]
    ensures '.' !in r
    ensures |r| < |p| ==> p[|r|] == '.'
  {
    if |p| == 0 || p[0] == '.' then ""
    else [p[0]] + BeforeFirstDot(p[1..])
  }

  /** `h` without its trailing '/' characters. */
  function RStripSlashes(h: string): (r: string)
    ensures |r| <= |h| && r == h[..|r|]
    ensures forall k :: |r| <= k < |h| ==> h[k] == '/'
    ensures r != [] ==> r[|r| - 1] != '/'
  {
    if |h| > 0 && h[|h| - 1] == '/' then RStripSlashes(h[..|h| - 1]) else h
  }

  /** The directory part of POSIX `os.path.split(p)`: everything up to the last '/', with
      trailing slashes removed unless it consists of slashes only. It is empty exactly when
      `p` has no '/'. */
  function SplitHead(p: string): (head: string)
    ensures head == [] <==> '/' !in p
  {
    var h := p[..|p| - |BaseName(p)|];
    if forall k :: 0 <= k < |h| ==> h[k] == '/' then
      assert '/' in p ==> h[|h| - 1] == '/';
      h
    else
      RStripSlashes(h)
  }
}

=== FILE: tpl.dfy ===
/** The decode of a TPL data block (`TPL_DBlock` in graphics/tpl.py): five values read from
    the front of a block, two of them shifted right. The block is a sequence of Python
    integers; indexing past its end raises. */
module Tpl {
  import opened Outcomes

  datatype DBlock = DBlock(hShift: int, vShift: int, readStart: int, hrle: int, vrle: int)

  /** Indexing `block[k]` past the end of the block. */
  datatype Error = IndexError

  /** The number of values a block must hold. */
  const FieldCount: nat := 5

  function Pow2(n: nat): (p: nat)
    ensures p >= 1
  {
    if n == 0 then 1 else 2 * Pow2(n - 1)
  }

  /** Python's `x >> n` on integers: floor division by 2^n, rounding towards negative
      infinity for negative `x` (an arithmetic shift), one bit at a time. */
  function ShiftRight(x: int, n: nat): (r: int)
    ensures Pow2(n) * r <= x < Pow2(n) * r + Pow2(n)
  {
    if n == 0 then x
    else
      var q := ShiftRight(x, n - 1);
      HalveStep(x, Pow2(n - 1), q);
      q / 2
  }

  /** If `x` lies in the `p`-wide bucket number `q`, it lies in the `2p`-wide bucket number
      `q / 2`. */
  lemma HalveStep(x: int, p: nat, q: int)
    requires p >= 1 && p * q <= x < p * q + p
    ensures 2 * p * (q / 2) <= x < 2 * p * (q / 2) + 2 * p
  {
    var h := q / 2;
    assert q == 2 * h || q == 2 * h + 1;
    assert p * q == 2 * p * h || p * q == 2 * p * h + p;
  }

  /** The shift is the unique integer whose bucket holds `x`. */
  lemma ShiftRightUnique(x: int, n: nat, r: int)
    requires Pow2(n) * r <= x < Pow2(n) * r + Pow2(n)
    ensures ShiftRight(x, n) == r
  {
    var s := ShiftRight(x, n);
    if s < r {
      BucketsApart(Pow2(n), s, r);
    } else if s > r {
      BucketsApart(Pow2(n), r, s);
    }
  }

  /** A lower bucket ends before a higher one starts. */
  lemma BucketsApart(p: nat, a: int, b: int)
    requires a < b
    ensures p * a + p <= p * b
  {
    var d := b - a;
    assert p * b == p * a + p * d;
    assert p * d == p + p * (d - 1);
  }

  /** `TPL_DBlock.__init__`: `hShift`, `readStart` and `hrle` are elements 0, 2 and 3 as they
      are; `vShift` is element 1 shifted right by one bit and `vrle` element 4 shifted right by
      two. A block of fewer than five values raises. */
  function Decode(block: seq<int>): (r: Result<DBlock, Error>)
    ensures r.Failure? <==> |block| < FieldCount
    ensures r.Success? ==>
      && r.value.hShift == block[0]
      && 2 * r.value.vShift <= block[1] < 2 * r.value.vShift + 2
      && r.value.readStart == block[2]
      && r.value.hrle == block[3]
      && 4 * r.value.vrle <= block[4] < 4 * r.value.vrle + 4
  {
    if |block| < FieldCount then Failure(IndexError)
    else Success(DBlock(block[0], ShiftRight(block[1], 1), block[2], block[3], ShiftRight(block[4], 2)))
  }

  /** Byte-sized inputs give a `vShift` below 128 and a `vrle` below 64. */
  lemma DecodeByteRanges(block: seq<int>)
    requires |block| >= FieldCount
    requires 0 <= block[1] < 0x100 && 0 <= block[4] < 0x100
    ensures var d := Decode(block).value;
      0 <= d.vShift < 128 && 0 <= d.vrle < 64
  {
  }

  /** Only the first five values are read: whatever follows them changes nothing. */
  lemma DecodeReadsFive(block: seq<int>, rest: seq<int>)
    requires |block| == FieldCount
    ensures Decode(block + rest) == Decode(block)
  {
    var b := block + rest;
    assert b[0] == block[0] && b[1] == block[1] && b[2] == block[2];
    assert b[3] == block[3] && b[4] == block[4];
  }

  /** A five-value block for `d`, with `lowV` and `lowR` as the bits the two shifts drop. */
  function Encode(d: DBlock, lowV: nat, lowR: nat): (block: seq<int>)
    requires lowV < 2 && lowR < 4
    ensures |block| == FieldCount
  {
    [d.hShift, 2 * d.vShift + lowV, d.readStart, d.hrle, 4 * d.vrle + lowR]
  }

  /** Decoding a block built from `d` gives `d` back, whatever the dropped bits were. */
  lemma DecodeEncode(d: DBlock, lowV: nat, lowR: nat)
    requires lowV < 2 && lowR < 4
    ensures Decode(Encode(d, lowV, lowR)) == Success(d)
  {
    var b := Encode(d, lowV, lowR);
    ShiftRightUnique(b[1], 1, d.vShift);
    ShiftRightUnique(b[4], 2, d.vrle);
  }

  /** Conversely, the first five values of every decodable block are the encoding of what
      it decodes to, with the dropped bits being the low bits of elements 1 and 4. */
  lemma EncodeDecode(block: seq<int>)
    requires |block| >= FieldCount
    ensures var d := Decode(block).value;
      block[..FieldCount] == Encode(d, block[1] % 2, block[4] % 4)
  {
  }
}
